=== FILE: README.md ===
# Smart-home store and its views, in Dafny

This project models the core of a small smart-home web application. The
application keeps one in-memory store, the `SmartHomeProvider` context. The
store holds three ordered lists:

- devices: lights, thermostats, locks, cameras, sensors and outlets, each with power, an optional level or temperature, a status and an optional energy usage
- scenes: named lists of per-device settings
- notifications

It offers operations to add, update and delete devices and scenes, to
activate a scene, and to add, mark read and clear notifications. Components
read the store and derive their views from it:

- the analytics figures: total energy, active devices, estimated cost, energy by device type and by room
- the dashboard's search, room and status filter and its room list
- the notification bell and list: unread badge, Clear All, relative ages
- a device's card: power switch, sliders, status badge, energy label
- the Add Device dialog and the delete buttons
- the scene creator: device selection, scene construction, scene cards

Every entity is an immutable datatype and every operation is a total
function. Wherever the application reads the clock or generates an id,
the model takes that value as a parameter.

Modules, one file each:

- `Seqs` (`seqs.dfy`): the generic list operations the components use. These are `filter`, the `map` that replaces the matching elements, and first-occurrence de-duplication (`new Set`). The file also holds lemmas about them.
- `SmartHome` (`smart_home.dfy`): the entity types and the three-state update patch. It defines the shallow merge `{...device, ...updates}` and the seed data.
- `EntityStore` (`store.dfy`): the store operations and scene activation.
- `Analytics` (`analytics.dfy`): the analytics figures and the group-by reduction.
- `Dashboard` (`dashboard.dfy`): the device filter, the room list and the counts.
- `DecimalText` (`decimal_text.dfy`): how a number is rendered as decimal text, and reading it back.
- `NotificationCenter` (`notification_center.dfy`): unread count, badge, Clear All, icons and `formatTime`.
- `DeviceCard` (`device_card.dfy`): the card's two store updates, its controls, its badge and its energy label.
- `DeviceManagement` (`device_management.dfy`): the Add Device form and `handleDelete`.
- `SceneCreator` (`scene_creator.dfy`): the scene form, device selection and scene cards.

An update is a `Patch`. Each of its fields is absent (`None`) or present
(`Some`). `value` and `energyUsage` get a third state, present but
`undefined` (`Some(None)`), because the spread in `updateDevice` treats an
absent key differently from a key that holds `undefined`. Scene activation
always passes the entry's `value`, so an entry without a value clears the
device's value. The card's power toggle passes only `isOn`, so the value
is kept.

Scene activation as written does not do what its own code sets out to do.
The `forEach` in `activateScene` issues one `updateDevice` per entry, so
the evident intent is that every entry is applied, one after another. But
every call maps over the device list captured when the component rendered,
and the last state update replaces the earlier ones. So at run time only the scene's
last entry takes effect. The model keeps both readings:

- `EntityStore.ActivateScene` is the in-order application that was intended. The rest of the model uses it.
- `EntityStore.ActivateSceneAsRun` is the code as written.

See "## Findings".

## Model

| member | source | states |
|---|---|---|
| Seqs.Filter | src/components/Dashboard.tsx:16-26 | `filter` keeps, in their original order, exactly the elements that satisfy the predicate. Each kept element appears as often as it did in the input. |
| Seqs.FilterDistinct | src/components/SceneCreator.tsx:53 | Filtering a list without duplicates gives a list without duplicates. |
| Seqs.Dedup | src/components/Dashboard.tsx:14 | `Array.from(new Set(xs))` holds each value of `xs` exactly once, and nothing else. |
| Seqs.DedupFirstOccurrenceOrder | src/components/Dashboard.tsx:14 | The values of a `Set` come out in order of their first occurrence in `xs`. |
| SmartHome.MergeNoChange | src/components/SmartHomeContext.tsx:123-127 | Spreading an empty update over a device leaves the device as it was. |
| SmartHome.MergeLastWins | src/components/SmartHomeContext.tsx:123-127 | Of two spreads, the later one wins on every field it sets. Spreading the same update twice equals spreading it once. |
| SmartHome.MergeKeepsId | src/components/SmartHomeContext.tsx:123-127 | An update without an `id` key keeps the device's id, and one without a `type` key keeps its type. |
| SmartHome.TypeNameInjective | src/components/SmartHomeContext.tsx:3 | The six device type names are pairwise different. |
| SmartHome.Merge | src/components/SmartHomeContext.tsx:125 | The spread `{ ...device, ...updates }`: each key present in the update replaces the device's field, and an absent key keeps it. Its laws are stated by MergeNoChange, MergeLastWins and MergeKeepsId. |
| SmartHome.SeedDevices | src/components/SmartHomeContext.tsx:48-59 | The ten seeded devices, field by field. Their ids are distinct (SeedIdsDistinct). |
| SmartHome.SeedScenes | src/components/SmartHomeContext.tsx:61-94 | The three seeded scenes with their entries. Their ids are distinct, and every entry names a seeded device (SeedScenesNameSeededDevices). |
| SmartHome.SeedNotifications | src/components/SmartHomeContext.tsx:96-111 | The two seeded notifications, one and two hours before the given time. |
| SmartHome.SeedIdsDistinct | src/components/SmartHomeContext.tsx:48-94 | The seeded devices have pairwise different ids, and so do the seeded scenes. |
| SmartHome.SeedScenesNameSeededDevices | src/components/SmartHomeContext.tsx:61-94 | Every entry of every seeded scene names one of the seeded devices. |
| SmartHome.SeedNotificationsOlder | src/components/SmartHomeContext.tsx:96-111 | Every seeded notification is older than the time the store is created. |
| EntityStore.AddDevice | src/components/SmartHomeContext.tsx:118-121 | `addDevice` appends exactly one device, with the given fields and the new id. Earlier devices, scenes and notifications are unchanged. |
| EntityStore.UpdateDevice | src/components/SmartHomeContext.tsx:123-127 | `updateDevice` keeps length and order. Each device with the id becomes the update spread over it, and every other device is untouched. An unknown id leaves the store unchanged. |
| EntityStore.DeleteDevice | src/components/SmartHomeContext.tsx:129-131 | `deleteDevice` removes every device with the id. The others remain, in their order and with their multiplicity. Scenes are untouched. |
| EntityStore.AddScene | src/components/SmartHomeContext.tsx:133-136 | `addScene` appends exactly one scene with the new id. Earlier scenes and the other lists are unchanged. |
| EntityStore.DeleteScene | src/components/SmartHomeContext.tsx:155-157 | `deleteScene` removes every scene with the id, keeps the rest in order, and leaves devices untouched. |
| EntityStore.AddNotification | src/components/SmartHomeContext.tsx:159-167 | `addNotification` puts one unread record, stamped with the current time, in front. The old list becomes its tail. |
| EntityStore.MarkNotificationRead | src/components/SmartHomeContext.tsx:169-173 | A notification becomes read exactly when it was read or carries the id. Nothing else about any notification changes. |
| EntityStore.ClearAllNotifications | src/components/SmartHomeContext.tsx:175-177 | Clear empties the notification list and touches nothing else. |
| EntityStore.DeleteUnknownDevice | src/components/SmartHomeContext.tsx:129-131 | Deleting an id no device carries changes nothing. |
| EntityStore.UpdateAfterDelete | src/components/SmartHomeContext.tsx:123-131 | Updating a deleted id is a no-op. Stale references are tolerated. |
| EntityStore.UpdateIsOnOnly | src/components/SmartHomeContext.tsx:123-127 | An update carrying only `isOn` changes only the power of the matching devices. |
| EntityStore.AddThenDeleteDevice | src/components/SmartHomeContext.tsx:118-131 | Adding a device under a fresh id and then deleting that id restores the store. |
| EntityStore.AddThenDeleteScene | src/components/SmartHomeContext.tsx:133-157 | Adding a scene under a fresh id and then deleting that id restores the store. |
| EntityStore.MarkReadIdempotent | src/components/SmartHomeContext.tsx:169-173 | Marking the same notification read twice equals marking it once. |
| EntityStore.ClearThenMarkRead | src/components/SmartHomeContext.tsx:169-177 | After Clear All, marking a notification read leaves the list empty. |
| EntityStore.FindScene | src/components/SmartHomeContext.tsx:139-140 | `find` yields nothing exactly when no scene has the id. Otherwise it yields the first scene that has it. |
| EntityStore.LastEntryFor | src/components/SmartHomeContext.tsx:142-147 | The entry that configures a device last is the last entry naming it, and there is none when no entry names it. |
| EntityStore.ApplyEntries | src/components/SmartHomeContext.tsx:142-147 | Applying a scene's entries in order leaves each device as configured by the last entry naming it. Unnamed devices are unchanged, and entries naming missing devices have no effect. |
| EntityStore.ActivateScene | src/components/SmartHomeContext.tsx:138-153 | An unknown scene changes nothing. Otherwise each device ends with the `isOn` and `value` of the last entry naming it, and the value is cleared when that entry has none. Exactly one unread info notification `Scene "<name>" activated` is put in front, and the scenes are unchanged. |
| EntityStore.ActivateSceneAsRun | src/components/SmartHomeContext.tsx:138-153 | As written, only the scene's final entry is applied to the captured device list. The notification is still put in front. |
| EntityStore.ActivateSceneIdempotent | src/components/SmartHomeContext.tsx:138-147 | Activating a scene twice leaves the devices as one activation does. |
| EntityStore.AsRunAgreesOnShortScenes | src/components/SmartHomeContext.tsx:138-153 | When the scene that activation finds has at most one entry, the as-written activation equals the intended one. |
| EntityStore.FindGoodMorning | src/components/SmartHomeContext.tsx:83-93 | In the seed data, scene `3` is Good Morning. |
| EntityStore.GoodMorningScenario | src/components/SmartHomeContext.tsx:83-93 | Activating Good Morning on the seed store sets device `1` on at 100 and device `4` on at 68. It puts `Scene "Good Morning" activated` in front of the seeded notifications. |
| EntityStore.GoodMorningAsRun | src/components/SmartHomeContext.tsx:142-147 | As written, Good Morning leaves device `1` as seeded, while the intended activation changes it. |
| Analytics.ActiveCount | src/components/AnalyticsDashboard.tsx:31 | The active count is at most the number of devices, and is zero exactly when no device is both on and online. |
| Analytics.TotalEnergy | src/components/AnalyticsDashboard.tsx:30 | The `reduce` over the devices' usages, an absent usage counting as 0. TotalEnergyZero, GroupBy and GroupByIsBreakdown state what it means. |
| Analytics.TotalEnergyZero | src/components/AnalyticsDashboard.tsx:30 | The total energy is zero exactly when every device's usage (absent counting as 0) is zero. |
| Analytics.EstimatedCost | src/components/AnalyticsDashboard.tsx:93 | The estimated cost is never negative, and is zero exactly when the total energy is zero. |
| Analytics.AddTo | src/components/AnalyticsDashboard.tsx:33-41 | One reduce step either adds to the group with that name or appends a new group at the end. Either way the values grow by exactly the device's energy. |
| Analytics.AddToValues | src/components/AnalyticsDashboard.tsx:33-41 | With distinct names, one reduce step adds the energy to the matching group only. |
| Analytics.GroupBy | src/components/AnalyticsDashboard.tsx:33-51 | The group names are the keys in order of first occurrence, and the values add up to the total energy. |
| Analytics.GroupValues | src/components/AnalyticsDashboard.tsx:33-51 | Each group's value is the summed energy of exactly the devices with that key. |
| Analytics.GroupByIsBreakdown | src/components/AnalyticsDashboard.tsx:33-51 | The reduction is a breakdown: distinct names, every key present, first-occurrence order, per-key sums and a grand total equal to the total energy. It has at most one group per device and none for an empty list. |
| Analytics.GroupByOrder | src/components/AnalyticsDashboard.tsx:33-51 | Earlier groups are for keys that occur earlier among the devices. |
| Analytics.KeysMembership | src/components/AnalyticsDashboard.tsx:33-51 | A name is a key exactly when some device has it. |
| Analytics.DeviceTypeData | src/components/AnalyticsDashboard.tsx:33-41 | The energy-by-type data is a breakdown by device type. |
| Analytics.RoomData | src/components/AnalyticsDashboard.tsx:43-51 | The energy-by-room data is a breakdown by room. |
| Analytics.SeedUsages | src/components/SmartHomeContext.tsx:48-59 | The seeded devices use 12, 8, 15, 45, 2, 3, 18, 1, 0 and 0 kWh. |
| Analytics.TotalOfTen | src/components/AnalyticsDashboard.tsx:30 | The total of a ten-device list is the sum of its ten usages. |
| Analytics.SeedEnergyAndCost | src/components/AnalyticsDashboard.tsx:93 | For the seed data the total is 104 kWh and the estimated cost 15.6, before display rounding. |
| Dashboard.LowerOfUpper | src/components/Dashboard.tsx:17-18 | Lower-casing erases any earlier upper-casing. |
| Dashboard.LowerIdempotent | src/components/Dashboard.tsx:17-18 | Lower-casing twice equals lower-casing once. |
| Dashboard.ContainsIffOccurs | src/components/Dashboard.tsx:17-18 | `includes` holds exactly when the term occurs at some position of the text. |
| Dashboard.ContainsEmpty | src/components/Dashboard.tsx:17-18 | Every text includes the empty term. |
| Dashboard.FilteredDevices | src/components/Dashboard.tsx:16-26 | The shown devices are an order-preserving subsequence of the list. A device is shown exactly when it matches the search, the room and the status, and a matching device is kept with its multiplicity. |
| Dashboard.MatchesSearch | src/components/Dashboard.tsx:17-18 | The search criterion: the lower-cased name or room contains the lower-cased term. Stated through FilteredDevices, SearchIgnoresCase and ContainsIffOccurs. |
| Dashboard.MatchesRoom | src/components/Dashboard.tsx:19 | The room criterion: `all` or the device's own room. Stated through FilteredDevices and TwoInRoomShown. |
| Dashboard.MatchesStatus | src/components/Dashboard.tsx:20-23 | The status criterion. Which devices each choice admits is stated by StatusChoices. |
| Dashboard.NoCriteriaShowsAll | src/components/Dashboard.tsx:10-26 | With the initial filters (empty search, room `all`, status `all`), every device is shown. |
| Dashboard.StatusChoices | src/components/Dashboard.tsx:20-23 | `active` tests only power, and `online`/`offline` test the status exactly. Any other status choice shows nothing. |
| Dashboard.SearchIgnoresCase | src/components/Dashboard.tsx:17-18 | Two search terms that lower-case alike show the same devices. |
| Dashboard.SearchUpperOrLower | src/components/Dashboard.tsx:17-18 | Upper-casing or lower-casing the search term does not change what is shown. |
| Dashboard.Rooms | src/components/Dashboard.tsx:14 | The room choices are `all` followed by each device room once, in order of first occurrence. |
| Dashboard.OnlineCount | src/components/Dashboard.tsx:28 | The online count is at most the number of devices, and is zero exactly when no device is online. |
| Dashboard.ActiveAtMostOnline | src/components/Dashboard.tsx:28-29 | Active devices are at most the online devices, which are at most all devices. |
| Dashboard.OnlyOfflineShown | src/components/Dashboard.tsx:20-22 | With a single offline device, the `offline` choice shows exactly that device. |
| Dashboard.TwoInRoomShown | src/components/Dashboard.tsx:19 | With exactly two devices in a room, choosing that room shows those two, in list order. |
| Dashboard.SeedOffline | src/components/Dashboard.tsx:20-22 | With the seed data, `offline` shows only Patio Light. |
| Dashboard.SeedKitchen | src/components/Dashboard.tsx:19 | With the seed data, room Kitchen shows Kitchen Light, then Coffee Maker. |
| DecimalText.NatText | src/components/DeviceCard.tsx:108 | A non-negative number renders as a non-empty string of digits without a leading zero. |
| DecimalText.IntText | src/components/DeviceCard.tsx:108 | A number renders as non-empty text that starts with `-` exactly when the number is negative. |
| DecimalText.NatTextRoundTrip | src/components/DeviceCard.tsx:108 | Reading back the digits of a non-negative number gives the number. |
| DecimalText.IntTextRoundTrip | src/components/DeviceCard.tsx:108 | Reading back the text of any integer gives the integer. |
| NotificationCenter.UnreadCount | src/components/NotificationCenter.tsx:12 | The unread count is at most the list length, and is zero exactly when every notification is read. |
| NotificationCenter.BadgeIffUnread | src/components/NotificationCenter.tsx:41-45 | The bell's badge is shown exactly when some notification is unread. |
| NotificationCenter.ShowsBadge | src/components/NotificationCenter.tsx:41 | The bell's badge is rendered exactly when some notification is unread. |
| NotificationCenter.ShowsClearAll | src/components/NotificationCenter.tsx:51 | Whenever the badge is shown, Clear All is shown too. |
| NotificationCenter.ClearAllHidesControls | src/components/NotificationCenter.tsx:41-61 | A badge implies a Clear All button, and after Clear All neither is shown. |
| NotificationCenter.FewerUnread | src/components/NotificationCenter.tsx:12 | Marking records read never raises the unread count, and marking an unread record read lowers it. |
| NotificationCenter.MarkReadLowersUnread | src/components/NotificationCenter.tsx:78 | Clicking a notification never raises the unread count, and lowers it when the notification was unread. |
| NotificationCenter.AllReadHidesBadge | src/components/NotificationCenter.tsx:41-45 | With everything read, there is no badge. |
| NotificationCenter.IconDistinguishesType | src/components/NotificationCenter.tsx:14-23 | The three notification types get three different icons. |
| NotificationCenter.AgeOf | src/components/NotificationCenter.tsx:25-34 | The minutes branch is taken exactly below one hour, negative differences included. The hours branch is taken from one hour up to one day, and the date from one day on. The counts are the floor quotients, minutes stay below 60 (and are non-negative for non-negative input), and hours lie in 1..23. |
| NotificationCenter.AgeMonotone | src/components/NotificationCenter.tsx:25-34 | An older notification never falls into a younger bucket, and within a bucket its count is not smaller. |
| NotificationCenter.BellTimeRoundTrip | src/components/NotificationCenter.tsx:25-34 | The bell's text determines the bucket and its count, when the date text does not itself end in `m ago` or `h ago`. |
| NotificationCenter.ListTimeRoundTrip | src/components/NotificationCenter.tsx:116-125 | The list's text determines the bucket and its count, under the same condition. |
| NotificationCenter.BellTime | src/components/NotificationCenter.tsx:25-34 | The bell's `formatTime` text for a time difference. BellTimeRoundTrip states that the text reads back to its bucket and count. |
| NotificationCenter.ListTime | src/components/NotificationCenter.tsx:116-125 | The list's `formatTime` text for a time difference. ListTimeRoundTrip states that the text reads back to its bucket and count. |
| NotificationCenter.BellAndListAgree | src/components/NotificationCenter.tsx:116-125 | The bell and the list read back to the same bucket and count for every time difference. Both renderings go through the shared AgeOf, so this holds by construction: it records that the two `formatTime` copies use the same thresholds, and adds no behaviour of its own. |
| NotificationCenter.SeedAges | src/components/SmartHomeContext.tsx:96-111 | The seeded notifications are one and two hours old, and one of them is unread. |
| DeviceCard.HandleToggle | src/components/DeviceCard.tsx:25-27 | The toggle flips the power of the devices with the card's id, taking the opposite of the card's state. Nothing else changes. |
| DeviceCard.ToggleTwiceRestores | src/components/DeviceCard.tsx:25-27 | Toggling and then toggling the re-rendered card restores the store. |
| DeviceCard.ToggleFlipsPower | src/components/DeviceCard.tsx:25-27 | After a toggle the device is on exactly when it was off. |
| DeviceCard.HandleValueChange | src/components/DeviceCard.tsx:29-31 | A slider change sets only the value of the devices with the card's id. The value becomes the first reported number, or is cleared when none is reported. Power is never touched. |
| DeviceCard.SliderFor | src/components/DeviceCard.tsx:69-100 | A slider is shown exactly for a light or a thermostat with a value. A light gets brightness 0..100 and a thermostat gets temperature 60..85, positioned at the value. |
| DeviceCard.OfflineDisablesControls | src/components/DeviceCard.tsx:61-97 | An offline device has its switch and its slider disabled, and a usable slider implies a usable switch. |
| DeviceCard.SwitchDisabled | src/components/DeviceCard.tsx:64 | The power switch is disabled exactly for an offline device. Stated through OfflineDisablesControls. |
| DeviceCard.SliderDisabled | src/components/DeviceCard.tsx:80 | A slider is disabled whenever the switch is, and also while the device is off. The light and thermostat sliders use the same condition (line 97). |
| DeviceCard.SliderSurvivesValueChange | src/components/DeviceCard.tsx:69-100 | Moving a slider keeps the same slider, now at the new position. |
| DeviceCard.ToggleEnablesSlider | src/components/DeviceCard.tsx:80-97 | For a device that is not offline (online or warning), toggling the power flips whether its slider is usable. |
| DeviceCard.StatusTextInjective | src/components/DeviceCard.tsx:33-47 | The three statuses have three different texts and three different colours. |
| DeviceCard.BadgeVariantFor | src/components/DeviceCard.tsx:103 | The badge is `secondary` exactly for an online device. |
| DeviceCard.EnergyLabel | src/components/DeviceCard.tsx:107-109 | The energy label is shown exactly when the usage is defined. |
| DeviceCard.EnergyLabelRoundTrip | src/components/DeviceCard.tsx:107-109 | The number in front of ` kWh` reads back as the usage. |
| DeviceCard.IconInjective | src/components/DeviceCard.tsx:8-15 | The six device types have six different icons. |
| DeviceManagement.NewDeviceSpec | src/components/DeviceManagement.tsx:21-27 | A new device copies name, type and room from the form. It is off, online and uses 0 kWh. Its value is 0 exactly for lights and thermostats, and absent otherwise. |
| DeviceManagement.SubmitDevice | src/components/DeviceManagement.tsx:19-30 | Submitting appends the new device to the list and resets the form to empty name, light and empty room. |
| DeviceManagement.SubmitKeepsTotals | src/components/DeviceManagement.tsx:21-27 | A new device changes neither the total energy nor the active count. |
| DeviceManagement.NewDeviceCard | src/components/DeviceManagement.tsx:21-27 | A new device's switch is enabled. It shows a slider at 0, disabled, exactly when it is a light or a thermostat. |
| DeviceManagement.HandleDelete | src/components/DeviceManagement.tsx:105-108 | Delete does what the store's `deleteDevice` does: it removes every device with the id and keeps the rest in order and multiplicity. The callback, when one is given, receives that same id. |
| DeviceManagement.SubmitThenDelete | src/components/DeviceManagement.tsx:105-108 | Submitting a device under a fresh id and then deleting it restores the store. |
| SceneCreator.IconOrDefault | src/components/SceneCreator.tsx:140 | A scene's icon is the one its name selects: each of the five keys gives the icon stored under it. Any name outside the five keys falls back to Home. |
| SceneCreator.IconRoundTrip | src/components/SceneCreator.tsx:13-19 | Each of the five icons is found again from its key. |
| SceneCreator.ToggleSelection | src/components/SceneCreator.tsx:50-56 | Ticking a device flips its membership and leaves every other id's membership as it was. An unticked id is appended at the end. A ticked id is removed, and the other ids keep their order and multiplicity. A selection free of duplicates stays so. |
| SceneCreator.ToggleTwiceRestores | src/components/SceneCreator.tsx:50-56 | Ticking an unselected device twice restores the selection exactly. |
| SceneCreator.ToggleTwiceSameTicks | src/components/SceneCreator.tsx:50-56 | Ticking any device twice leaves the same devices ticked. |
| SceneCreator.SceneEntries | src/components/SceneCreator.tsx:32-36 | There is one entry per selected id, in selection order, each switching the device on with no value. |
| SceneCreator.SubmitScene | src/components/SceneCreator.tsx:28-48 | With an empty name or no selection nothing changes. Otherwise one scene with the form's name, icon and entries is appended, and the form is reset. |
| SceneCreator.CanSubmit | src/components/SceneCreator.tsx:30 | The guard of `handleSubmit`. What a refused and an accepted submit do is stated by SubmitScene. |
| SceneCreator.EntryForTicked | src/components/SceneCreator.tsx:32-36 | In a created scene, the entry for a device is "on, no value" exactly when the device was ticked. |
| SceneCreator.FindAppended | src/components/SmartHomeContext.tsx:133-140 | A scene appended under a fresh id is the one activation finds for that id. |
| SceneCreator.ActivateCreatedScene | src/components/SceneCreator.tsx:28-48 | Activating a newly created scene switches the ticked devices on and clears their value. All other devices are left as they were. |
| SceneCreator.FindDevice | src/components/SceneCreator.tsx:161 | `find` yields nothing exactly when no device has the id, and otherwise a device of the list with that id. |
| SceneCreator.FindDeviceFirst | src/components/SceneCreator.tsx:161 | The device `find` yields is the first one with that id. |
| SceneCreator.BadgeNames | src/components/SceneCreator.tsx:160-167 | There are at most as many badges as entries, each holding the name of a device some entry refers to. There are as many badges as entries when every device exists. |
| SceneCreator.BadgeNamesExact | src/components/SceneCreator.tsx:160-167 | There is exactly one badge per entry whose device is found, in entry order. The i-th badge holds the name of the device found for the i-th such entry. |
| SceneCreator.Badges | src/components/SceneCreator.tsx:160-167 | A card shows at most three device badges, each naming an existing device of one of the first three entries. |
| SceneCreator.MoreBadge | src/components/SceneCreator.tsx:168-172 | The `+N more` badge is shown exactly when there are more than three entries, with N the number beyond three. |
| SceneCreator.SmallSceneShowsAll | src/components/SceneCreator.tsx:160-172 | A scene with at most three entries whose devices all exist shows every entry and no `+N more`. |
| SceneCreator.ThreeBadges | src/components/SceneCreator.tsx:160-167 | Three entries whose devices are found give those three names, in entry order. |
| SceneCreator.FirstThreeFound | src/components/SceneCreator.tsx:160-167 | A scene whose first three devices are found shows those three names, in order. |
| SceneCreator.AwayModeCard | src/components/SceneCreator.tsx:160-172 | The seeded Away Mode card shows Living Room Light, Bedroom Light and Kitchen Light, then `+2 more`. |

## Left out

- Rendering, layout, styling and labels (all JSX), tab state and `src/App.tsx`: presentation with no rules.
- The charts and the static weekly and monthly arrays of the analytics view: constant illustration data drawn by a foreign library.
- The UI library components (dialog, select, slider, switch, popover) are not part of this model. Slider bounds are the card's props, except the light's minimum 0, which is the slider's default. Whether the slider clamps is not modelled.
- The dialogs' open/closed state: it only controls visibility.
- `Date.now()` ids and `new Date()` timestamps. Ids and the current time are parameters. The lemmas that need a new id to be unused ask for it: `EntityStore.AddThenDeleteDevice`, `EntityStore.AddThenDeleteScene`, `DeviceManagement.SubmitThenDelete`, `SceneCreator.FindAppended` and `SceneCreator.ActivateCreatedScene`.
- Locale date text (`toLocaleDateString`, `toLocaleString`) is a parameter. The cost's `toFixed(2)` rounding is not modelled, and the cost is the exact real `total * 0.15`.
- Floating-point numbers: energy usage is a `nat`, and device values and slider values are `int`. The seed and default values are all integers.
- React state batching in general, the context wiring, and the missing-provider error of `useSmartHome`. Scene activation loses updates because of the stale `devices` list each `updateDevice` call captures, not because of batching. `EntityStore.ActivateSceneAsRun` models it.
- Unicode case folding: `toLowerCase` is modelled on ASCII letters only.
- The form's `required` attribute on the scene name: the browser enforces it. The explicit guard at SceneCreator.tsx line 30 is modelled.
- DeviceManagement.SubmitDevice: the `required` attribute on the device form's name and room inputs (DeviceManagement.tsx lines 56 and 85) is enforced by the browser, not by `handleSubmit`, so the model accepts an empty name or room.
- SceneCreator.IconOrDefault: names such as `constructor` that an object lookup would find on the prototype are treated like any other unknown name and fall back to Home.
- DeviceCard.HandleToggle and DeviceCard.HandleValueChange: the card captures the device it was rendered with, so the model takes that device as an argument. It does not re-read the store.

## Findings

| source | as written | input that shows it | evidently intended | confidence | as-written member | corrected member |
|---|---|---|---|---|---|---|
| src/components/SmartHomeContext.tsx:142-147 | Each `updateDevice` call in the loop maps over the device list captured by the render and replaces the whole list. The last call's list overwrites the others, so only the scene's final entry takes effect. | Activate Good Morning (scene `3`) on the seeded store. Only Main Thermostat (the last entry) is set, to 68. Living Room Light stays at brightness 80 instead of 100. | Every entry of the scene is applied in order, and each device ends as its last entry says. | high (not executed) | EntityStore.ActivateSceneAsRun, shown by EntityStore.GoodMorningAsRun | EntityStore.ActivateScene, with EntityStore.GoodMorningScenario and EntityStore.ActivateSceneIdempotent |

=== FILE: analytics.dfy ===
/**
 The figures of the analytics view, recomputed from a device list: total
 energy, number of active devices, estimated cost, and the energy grouped
 by device type and by room.
 */
module Analytics {
  import opened Seqs
  import opened SmartHome

  /** `device.energyUsage || 0`. */
  function Energy(d: Device): nat {
    match d.energyUsage
    case None => 0
    case Some(e) => e
  }

  /** `devices.reduce((sum, d) => sum + (d.energyUsage || 0), 0)`. */
  function TotalEnergy(ds: seq<Device>): nat
    decreases |ds|
  {
    if |ds| == 0 then 0 else TotalEnergy(ds[..|ds| - 1]) + Energy(ds[|ds| - 1])
  }

  /** The total is zero exactly when every device uses nothing (an absent usage counting as 0). */
  lemma {:induction false} TotalEnergyZero(ds: seq<Device>)
    ensures TotalEnergy(ds) == 0 <==> forall d :: d in ds ==> Energy(d) == 0
    decreases |ds|
  {
    if |ds| > 0 {
      var init := ds[..|ds| - 1];
      TotalEnergyZero(init);
      assert forall d :: d in ds <==> d in init || d == ds[|ds| - 1] by {
        assert ds == init + [ds[|ds| - 1]];
      }
    }
  }

  /** A device is active when it is on and online. */
  predicate IsActive(d: Device) {
    d.isOn && d.status == Online
  }

  /** Number of active devices; it is zero exactly when no device is active. */
  function ActiveCount(ds: seq<Device>): (n: nat)
    ensures n <= |ds|
    ensures n == 0 <==> forall d :: d in ds ==> !IsActive(d)
  {
    var active := Filter(ds, IsActive);
    assert active != [] ==> active[0] in active;
    |active|
  }

  /** Estimated monthly cost at 0.15 per kWh (the display rounding is not modelled). */
  function EstimatedCost(total: nat): (c: real)
    ensures c >= 0.0
    ensures c == 0.0 <==> total == 0
  {
    total as real * 0.15
  }

  // ---------------------------------------------------------------------------
  // Group-by

  /** One slice of a breakdown chart: a type or room name and its energy. */
  datatype Group = Group(name: string, value: nat)

  function Names(gs: seq<Group>): (ns: seq<string>)
    ensures |ns| == |gs|
    ensures forall i :: 0 <= i < |gs| ==> ns[i] == gs[i].name
    decreases |gs|
  {
    if |gs| == 0 then [] else [gs[0].name] + Names(gs[1..])
  }

  function SumValues(gs: seq<Group>): nat
    decreases |gs|
  {
    if |gs| == 0 then 0 else gs[0].value + SumValues(gs[1..])
  }

  /** The grouping key of every device, in device order. */
  function Keys(ds: seq<Device>, key: Device -> string): (ks: seq<string>)
    ensures |ks| == |ds|
    ensures forall i :: 0 <= i < |ds| ==> ks[i] == key(ds[i])
  {
    seq(|ds|, i requires 0 <= i < |ds| => key(ds[i]))
  }

  /** Energy of the devices whose key is `name`. */
  function KeyEnergy(ds: seq<Device>, key: Device -> string, name: string): nat
    decreases |ds|
  {
    if |ds| == 0 then 0
    else KeyEnergy(ds[..|ds| - 1], key, name) + (if key(ds[|ds| - 1]) == name then Energy(ds[|ds| - 1]) else 0)
  }

  /**
   One step of the reduction: add `v` to the group called `name` if there is
   one (`acc.find`), otherwise append a new group.
   */
  function AddTo(acc: seq<Group>, name: string, v: nat): (r: seq<Group>)
    ensures |r| == if name in Names(acc) then |acc| else |acc| + 1
    ensures Names(r) == if name in Names(acc) then Names(acc) else Names(acc) + [name]
    ensures SumValues(r) == SumValues(acc) + v
    ensures name !in Names(acc) ==> r[|acc|] == Group(name, v)
    decreases |acc|
  {
    if |acc| == 0 then [Group(name, v)]
    else
      var head := acc[0];
      assert Names(acc) == [head.name] + Names(acc[1..]);
      if head.name == name then
        var r := [head.(value := head.value + v)] + acc[1..];
        assert r[1..] == acc[1..];
        r
      else
        var rest := AddTo(acc[1..], name, v);
        var r := [head] + rest;
        assert r[1..] == rest;
        r
  }

  /** With distinct names, `AddTo` adds `v` to the group called `name` and to no other. */
  lemma {:induction false} AddToValues(acc: seq<Group>, name: string, v: nat)
    requires Distinct(Names(acc))
    ensures forall i :: 0 <= i < |acc| ==>
              AddTo(acc, name, v)[i].value == acc[i].value + (if acc[i].name == name then v else 0)
    decreases |acc|
  {
    if |acc| > 0 {
      var ns := Names(acc);
      assert ns == [acc[0].name] + Names(acc[1..]);
      assert Distinct(Names(acc[1..])) by {
        forall i, j | 0 <= i < j < |acc| - 1 ensures Names(acc[1..])[i] != Names(acc[1..])[j] {
          assert Names(acc[1..])[i] == ns[i + 1] && Names(acc[1..])[j] == ns[j + 1];
        }
      }
      if acc[0].name != name {
        AddToValues(acc[1..], name, v);
      } else {
        forall i | 1 <= i < |acc| ensures acc[i].name != name {
          assert ns[i] == acc[i].name && ns[0] == name;
        }
      }
    }
  }

  /**
   `devices.reduce(...)` building `{name, value}` groups keyed by `key`: one
   group per distinct key in order of first appearance, together holding
   all the energy.
   */
  function GroupBy(ds: seq<Device>, key: Device -> string): (g: seq<Group>)
    ensures Names(g) == Dedup(Keys(ds, key))
    ensures SumValues(g) == TotalEnergy(ds)
    decreases |ds|
  {
    if |ds| == 0 then []
    else
      var n := |ds| - 1;
      var pre := GroupBy(ds[..n], key);
      var k := key(ds[n]);
      DedupKeysSnoc(ds, key);
      AddTo(pre, k, Energy(ds[n]))
  }

  /** The distinct keys of a list grow by the last key exactly when it is new. */
  lemma DedupKeysSnoc(ds: seq<Device>, key: Device -> string)
    requires |ds| > 0
    ensures var rest := Dedup(Keys(ds[..|ds| - 1], key));
            var k := key(ds[|ds| - 1]);
            Dedup(Keys(ds, key)) == if k in rest then rest else rest + [k]
  {
    var ks := Keys(ds, key);
    assert ks[..|ds| - 1] == Keys(ds[..|ds| - 1], key);
  }

  /** Each group holds exactly the energy of the devices in `ds` with its key. */
  predicate ValuesMatch(ds: seq<Device>, key: Device -> string, g: seq<Group>) {
    forall j :: 0 <= j < |g| ==> g[j].value == KeyEnergy(ds, key, g[j].name)
  }

  /** The groups `GroupBy` builds hold the energy of their keys. */
  lemma {:induction false} GroupValues(ds: seq<Device>, key: Device -> string)
    ensures ValuesMatch(ds, key, GroupBy(ds, key))
    decreases |ds|
  {
    if |ds| > 0 {
      GroupValues(ds[..|ds| - 1], key);
      forall i | 0 <= i < |GroupBy(ds, key)|
        ensures GroupBy(ds, key)[i].value == KeyEnergy(ds, key, GroupBy(ds, key)[i].name)
      {
        GroupValueAt(ds, key, i);
      }
    }
  }

  /** One step of `GroupValues`: the last device's energy goes to its own group only. */
  lemma {:induction false} GroupValueAt(ds: seq<Device>, key: Device -> string, i: nat)
    requires |ds| > 0
    requires ValuesMatch(ds[..|ds| - 1], key, GroupBy(ds[..|ds| - 1], key))
    requires i < |GroupBy(ds, key)|
    ensures GroupBy(ds, key)[i].value == KeyEnergy(ds, key, GroupBy(ds, key)[i].name)
  {
    var pre := GroupBy(ds[..|ds| - 1], key);
    if i < |pre| {
      AddToOldGroup(ds, key, pre, i);
    } else {
      AddToNewGroup(ds, key, pre);
    }
  }

  /** A group that already existed gains the last device's energy exactly when the keys agree. */
  lemma {:induction false} AddToOldGroup(ds: seq<Device>, key: Device -> string, pre: seq<Group>, i: nat)
    requires |ds| > 0
    requires Distinct(Names(pre)) && ValuesMatch(ds[..|ds| - 1], key, pre)
    requires i < |pre|
    ensures var g := AddTo(pre, key(ds[|ds| - 1]), Energy(ds[|ds| - 1]));
            g[i].value == KeyEnergy(ds, key, g[i].name)
  {
    var k := key(ds[|ds| - 1]);
    var g := AddTo(pre, k, Energy(ds[|ds| - 1]));
    AddToValues(pre, k, Energy(ds[|ds| - 1]));
    assert g[i].name == pre[i].name by {
      assert Names(g)[i] == Names(pre)[i];
    }
  }

  /** A group opened for a key no earlier device had holds just the last device's energy. */
  lemma {:induction false} AddToNewGroup(ds: seq<Device>, key: Device -> string, pre: seq<Group>)
    requires |ds| > 0
    requires Names(pre) == Dedup(Keys(ds[..|ds| - 1], key))
    requires key(ds[|ds| - 1]) !in Names(pre)
    ensures var g := AddTo(pre, key(ds[|ds| - 1]), Energy(ds[|ds| - 1]));
            g[|pre|].value == KeyEnergy(ds, key, g[|pre|].name)
  {
    var k := key(ds[|ds| - 1]);
    assert k !in Keys(ds[..|ds| - 1], key);
    KeyEnergyAbsent(ds[..|ds| - 1], key, k);
  }

  /** No device has the key: no energy is attributed to it. */
  lemma {:induction false} KeyEnergyAbsent(ds: seq<Device>, key: Device -> string, name: string)
    ensures name !in Keys(ds, key) ==> KeyEnergy(ds, key, name) == 0
    decreases |ds|
  {
    if |ds| > 0 && name !in Keys(ds, key) {
      var n := |ds| - 1;
      assert Keys(ds, key)[..n] == Keys(ds[..n], key);
      assert Keys(ds, key)[n] in Keys(ds, key);
      KeyEnergyAbsent(ds[..n], key, name);
    }
  }

  /** A key occurs among the keys exactly when some device carries it. */
  lemma KeysMembership(ds: seq<Device>, key: Device -> string, x: string)
    ensures x in Keys(ds, key) <==> exists d :: d in ds && key(d) == x
  {
    if exists d :: d in ds && key(d) == x {
      var d :| d in ds && key(d) == x;
      var i :| 0 <= i < |ds| && ds[i] == d;
      assert Keys(ds, key)[i] == x;
    }
  }

  /**
   What a breakdown chart promises about its groups `g` for the devices `ds`:
   the names are distinct, name exactly the keys that occur and appear in
   order of their first occurrence; each value is the energy of the devices
   with that key; together the values add up to the total.
   */
  ghost predicate IsBreakdown(ds: seq<Device>, key: Device -> string, g: seq<Group>) {
    var ks := Keys(ds, key);
    && Distinct(Names(g))
    && (forall d :: d in ds ==> key(d) in Names(g))
    && (forall x :: x in Names(g) ==> x in ks)
    && (forall i, j :: 0 <= i < j < |g| ==>
          g[i].name in ks && g[j].name in ks && FirstIndex(ks, g[i].name) < FirstIndex(ks, g[j].name))
    && ValuesMatch(ds, key, g)
    && SumValues(g) == TotalEnergy(ds)
  }

  /** `GroupBy` produces a breakdown with at most one group per device. */
  lemma GroupByIsBreakdown(ds: seq<Device>, key: Device -> string)
    ensures IsBreakdown(ds, key, GroupBy(ds, key))
    ensures |GroupBy(ds, key)| <= |ds|
    ensures ds == [] ==> GroupBy(ds, key) == []
  {
    var g := GroupBy(ds, key);
    var ks := Keys(ds, key);
    assert Names(g) == Dedup(ks);
    forall d | d in ds
      ensures key(d) in Names(g)
    {
      KeysMembership(ds, key, key(d));
    }
    GroupByOrder(ds, key);
    GroupValues(ds, key);
  }

  lemma GroupByOrder(ds: seq<Device>, key: Device -> string)
    ensures var g := GroupBy(ds, key);
            var ks := Keys(ds, key);
            forall i, j :: 0 <= i < j < |g| ==>
              g[i].name in ks && g[j].name in ks && FirstIndex(ks, g[i].name) < FirstIndex(ks, g[j].name)
  {
    var g := GroupBy(ds, key);
    var ks := Keys(ds, key);
    var dd := Dedup(ks);
    DedupFirstOccurrenceOrder(ks);
    assert Names(g) == dd;
    forall i, j | 0 <= i < j < |g|
      ensures g[i].name in ks && g[j].name in ks && FirstIndex(ks, g[i].name) < FirstIndex(ks, g[j].name)
    {
      assert g[i].name == dd[i] && g[j].name == dd[j];
      assert dd[i] in dd && dd[j] in dd;
    }
  }

  function TypeKey(d: Device): string {
    TypeName(d.kind)
  }

  function RoomKey(d: Device): string {
    d.room
  }

  /** `deviceTypeData`: energy per device type. */
  function DeviceTypeData(ds: seq<Device>): (g: seq<Group>)
    ensures IsBreakdown(ds, TypeKey, g)
    ensures |g| <= |ds|
  {
    GroupByIsBreakdown(ds, TypeKey);
    GroupBy(ds, TypeKey)
  }

  /** `roomData`: energy per room. */
  function RoomData(ds: seq<Device>): (g: seq<Group>)
    ensures IsBreakdown(ds, RoomKey, g)
    ensures |g| <= |ds|
  {
    GroupByIsBreakdown(ds, RoomKey);
    GroupBy(ds, RoomKey)
  }

  // ---------------------------------------------------------------------------
  // Seed figures

  /** The seeded usages, in list order: 12, 8, 15, 45, 2, 3, 18, 1, 0, 0. */
  lemma SeedUsages()
    ensures |SeedDevices()| == 10
    ensures Energy(SeedDevices()[0]) == 12 && Energy(SeedDevices()[1]) == 8
    ensures Energy(SeedDevices()[2]) == 15 && Energy(SeedDevices()[3]) == 45
    ensures Energy(SeedDevices()[4]) == 2 && Energy(SeedDevices()[5]) == 3
    ensures Energy(SeedDevices()[6]) == 18 && Energy(SeedDevices()[7]) == 1
    ensures Energy(SeedDevices()[8]) == 0 && Energy(SeedDevices()[9]) == 0
  {
  }

  /** Extending a prefix by one device adds that device's usage. */
  lemma TotalEnergyPrefix(ds: seq<Device>, k: nat)
    requires 0 < k <= |ds|
    ensures TotalEnergy(ds[..k]) == TotalEnergy(ds[..k - 1]) + Energy(ds[k - 1])
  {
    assert ds[..k][..k - 1] == ds[..k - 1];
  }

  /** The total of a list is the sum of its devices' usages, spelled out for ten devices. */
  lemma TotalOfTen(ds: seq<Device>)
    requires |ds| == 10
    ensures TotalEnergy(ds) == Energy(ds[0]) + Energy(ds[1]) + Energy(ds[2]) + Energy(ds[3]) + Energy(ds[4])
                             + Energy(ds[5]) + Energy(ds[6]) + Energy(ds[7]) + Energy(ds[8]) + Energy(ds[9])
  {
    assert ds[..0] == [];
    TotalEnergyPrefix(ds, 1);
    TotalEnergyPrefix(ds, 2);
    TotalEnergyPrefix(ds, 3);
    TotalEnergyPrefix(ds, 4);
    TotalEnergyPrefix(ds, 5);
    TotalEnergyPrefix(ds, 6);
    TotalEnergyPrefix(ds, 7);
    TotalEnergyPrefix(ds, 8);
    TotalEnergyPrefix(ds, 9);
    TotalEnergyPrefix(ds, 10);
    assert ds[..10] == ds;
  }

  /** The seeded devices use 104 kWh, which costs 15.60. */
  lemma SeedEnergyAndCost()
    ensures TotalEnergy(SeedDevices()) == 104
    ensures EstimatedCost(TotalEnergy(SeedDevices())) == 15.6
  {
    SeedUsages();
    TotalOfTen(SeedDevices());
    assert TotalEnergy(SeedDevices()) == 104;
  }
}

=== FILE: dashboard.dfy ===
/**
 The device dashboard: the list of devices narrowed by a search term, a
 room and a status filter, the room choices, and the online/active counts.
 */
module Dashboard {
  import opened Seqs
  import opened SmartHome
  import Analytics

  // ---------------------------------------------------------------------------
  // Case-insensitive substring search (ASCII case mapping)

  function LowerChar(c: char): char {
    if 'A' <= c <= 'Z' then (c as int + 32) as char else c
  }

  function UpperChar(c: char): char {
    if 'a' <= c <= 'z' then (c as int - 32) as char else c
  }

  /** `toLowerCase` on ASCII letters. */
  function Lower(s: string): string {
    seq(|s|, i requires 0 <= i < |s| => LowerChar(s[i]))
  }

  /** `toUpperCase` on ASCII letters. */
  function Upper(s: string): string {
    seq(|s|, i requires 0 <= i < |s| => UpperChar(s[i]))
  }

  /** Upper-casing a term first does not change its lower-case form. */
  lemma LowerOfUpper(s: string)
    ensures Lower(Upper(s)) == Lower(s)
  {
  }

  /** Lower-casing twice is lower-casing once. */
  lemma LowerIdempotent(s: string)
    ensures Lower(Lower(s)) == Lower(s)
  {
  }

  predicate IsPrefix(n: string, h: string) {
    |n| <= |h| && h[..|n|] == n
  }

  /** `h.includes(n)`. */
  function Contains(h: string, n: string): bool
    decreases |h|
  {
    IsPrefix(n, h) || (|h| > 0 && Contains(h[1..], n))
  }

  /** `n` occurs in `h` starting at position `i`. */
  predicate OccursAt(h: string, n: string, i: int) {
    0 <= i && i + |n| <= |h| && h[i..i + |n|] == n
  }

  /** `includes` holds exactly when `n` occurs at some position of `h`. */
  lemma {:induction false} ContainsIffOccurs(h: string, n: string)
    ensures Contains(h, n) <==> exists i :: OccursAt(h, n, i)
    decreases |h|
  {
    if IsPrefix(n, h) {
      assert OccursAt(h, n, 0);
    } else if |h| > 0 {
      ContainsIffOccurs(h[1..], n);
      if exists i :: OccursAt(h, n, i) {
        var i :| OccursAt(h, n, i);
        assert i != 0;
        assert OccursAt(h[1..], n, i - 1) by {
          assert h[1..][i - 1..i - 1 + |n|] == h[i..i + |n|];
        }
      }
      if Contains(h[1..], n) {
        var i :| OccursAt(h[1..], n, i);
        assert OccursAt(h, n, i + 1) by {
          assert h[1..][i..i + |n|] == h[i + 1..i + 1 + |n|];
        }
      }
    }
  }

  /** The empty string is found in every string. */
  lemma ContainsEmpty(h: string)
    ensures Contains(h, "")
  {
    assert h[..0] == "";
  }

  // ---------------------------------------------------------------------------
  // The three criteria

  predicate MatchesSearch(d: Device, term: string) {
    Contains(Lower(d.name), Lower(term)) || Contains(Lower(d.room), Lower(term))
  }

  predicate MatchesRoom(d: Device, roomFilter: string) {
    roomFilter == "all" || d.room == roomFilter
  }

  predicate MatchesStatus(d: Device, statusFilter: string) {
    || statusFilter == "all"
    || (statusFilter == "online" && d.status == Online)
    || (statusFilter == "offline" && d.status == Offline)
    || (statusFilter == "active" && d.isOn)
  }

  function Criteria(term: string, roomFilter: string, statusFilter: string): Device -> bool {
    (d: Device) => MatchesSearch(d, term) && MatchesRoom(d, roomFilter) && MatchesStatus(d, statusFilter)
  }

  /**
   `filteredDevices`: the devices meeting all three criteria, in list order,
   each with its multiplicity.
   */
  function FilteredDevices(ds: seq<Device>, term: string, roomFilter: string, statusFilter: string): (r: seq<Device>)
    ensures IsSubsequence(r, ds)
    ensures forall d :: d in r <==>
              d in ds && MatchesSearch(d, term) && MatchesRoom(d, roomFilter) && MatchesStatus(d, statusFilter)
    ensures forall d :: MatchesSearch(d, term) && MatchesRoom(d, roomFilter) && MatchesStatus(d, statusFilter) ==>
              multiset(r)[d] == multiset(ds)[d]
  {
    Filter(ds, Criteria(term, roomFilter, statusFilter))
  }

  /** With no search term, room `all` and status `all` every device is shown. */
  lemma NoCriteriaShowsAll(ds: seq<Device>)
    ensures FilteredDevices(ds, "", "all", "all") == ds
  {
    forall d | d in ds
      ensures Criteria("", "all", "all")(d)
    {
      ContainsEmpty(Lower(d.name));
    }
    FilterKeepsAll(ds, Criteria("", "all", "all"));
  }

  /**
   What each status choice selects: `active` looks only at the power state,
   `online` and `offline` only at the status, and a value outside the four
   choices selects nothing.
   */
  lemma StatusChoices(ds: seq<Device>, term: string, roomFilter: string, statusFilter: string)
    ensures statusFilter == "active" ==>
              forall d :: d in FilteredDevices(ds, term, roomFilter, statusFilter) <==>
                d in FilteredDevices(ds, term, roomFilter, "all") && d.isOn
    ensures statusFilter == "online" ==>
              forall d :: d in FilteredDevices(ds, term, roomFilter, statusFilter) <==>
                d in FilteredDevices(ds, term, roomFilter, "all") && d.status == Online
    ensures statusFilter == "offline" ==>
              forall d :: d in FilteredDevices(ds, term, roomFilter, statusFilter) <==>
                d in FilteredDevices(ds, term, roomFilter, "all") && d.status == Offline
    ensures statusFilter !in ["all", "online", "offline", "active"] ==>
              FilteredDevices(ds, term, roomFilter, statusFilter) == []
  {
    var r := FilteredDevices(ds, term, roomFilter, statusFilter);
    assert |r| == 0 || r[0] in r;
  }

  /**
   The search ignores the case of the term: two terms that lower-case alike
   (`KiTchen` and `kitchen`, say) show the same devices.
   */
  lemma SearchIgnoresCase(ds: seq<Device>, t1: string, t2: string, roomFilter: string, statusFilter: string)
    requires Lower(t1) == Lower(t2)
    ensures FilteredDevices(ds, t1, roomFilter, statusFilter) == FilteredDevices(ds, t2, roomFilter, statusFilter)
  {
    FilterCongruent(ds, Criteria(t1, roomFilter, statusFilter), Criteria(t2, roomFilter, statusFilter));
  }

  /** In particular, upper-casing or lower-casing the term changes nothing. */
  lemma SearchUpperOrLower(ds: seq<Device>, term: string, roomFilter: string, statusFilter: string)
    ensures FilteredDevices(ds, Upper(term), roomFilter, statusFilter) == FilteredDevices(ds, term, roomFilter, statusFilter)
    ensures FilteredDevices(ds, Lower(term), roomFilter, statusFilter) == FilteredDevices(ds, term, roomFilter, statusFilter)
  {
    LowerOfUpper(term);
    LowerIdempotent(term);
    SearchIgnoresCase(ds, Upper(term), term, roomFilter, statusFilter);
    SearchIgnoresCase(ds, Lower(term), term, roomFilter, statusFilter);
  }

  // ---------------------------------------------------------------------------
  // Room choices and counts

  /** `rooms`: `all`, then every room once, in order of first appearance. */
  function Rooms(ds: seq<Device>): (r: seq<string>)
    ensures |r| >= 1 && r[0] == "all"
    ensures Distinct(r[1..])
    ensures forall x :: x in r[1..] <==> exists d :: d in ds && d.room == x
    ensures forall i, j :: 1 <= i < j < |r| ==>
              r[i] in Analytics.Keys(ds, Analytics.RoomKey) && r[j] in Analytics.Keys(ds, Analytics.RoomKey) &&
              FirstIndex(Analytics.Keys(ds, Analytics.RoomKey), r[i]) < FirstIndex(Analytics.Keys(ds, Analytics.RoomKey), r[j])
  {
    var ks := Analytics.Keys(ds, Analytics.RoomKey);
    DedupFirstOccurrenceOrder(ks);
    forall x ensures x in ks <==> exists d :: d in ds && d.room == x {
      Analytics.KeysMembership(ds, Analytics.RoomKey, x);
    }
    var r := ["all"] + Dedup(ks);
    assert r[1..] == Dedup(ks);
    r
  }

  predicate IsOnline(d: Device) {
    d.status == Online
  }

  /** `onlineDevices`. */
  function OnlineCount(ds: seq<Device>): (n: nat)
    ensures n <= |ds|
    ensures n == 0 <==> forall d :: d in ds ==> !IsOnline(d)
  {
    var online := Filter(ds, IsOnline);
    assert online != [] ==> online[0] in online;
    |online|
  }

  /** The header counts: active devices are among the online ones. */
  lemma ActiveAtMostOnline(ds: seq<Device>)
    ensures Analytics.ActiveCount(ds) <= OnlineCount(ds) <= |ds|
  {
    FilterMonotone(ds, Analytics.IsActive, IsOnline);
  }

  // ---------------------------------------------------------------------------
  // Seed views

  lemma SeedStatuses()
    ensures |SeedDevices()| == 10
    ensures forall i :: 0 <= i < 9 ==> SeedDevices()[i].status == Online
    ensures SeedDevices()[9].status == Offline
  {
  }

  lemma SeedRooms()
    ensures |SeedDevices()| == 10
    ensures forall i :: 0 <= i < 10 && i != 2 && i != 8 ==> SeedDevices()[i].room != "Kitchen"
    ensures SeedDevices()[2].room == "Kitchen" && SeedDevices()[8].room == "Kitchen"
  {
  }

  /** When a single device is offline, the status `offline` with no other criterion shows just that device. */
  lemma OnlyOfflineShown(ds: seq<Device>, k: nat)
    requires k < |ds| && ds[k].status == Offline
    requires forall i :: 0 <= i < |ds| && i != k ==> ds[i].status != Offline
    ensures FilteredDevices(ds, "", "all", "offline") == [ds[k]]
  {
    assert Lower("") == "";
    ContainsEmpty(Lower(ds[k].name));
    FilterSingle(ds, Criteria("", "all", "offline"), k);
  }

  /** When exactly two devices are in a room, the room filter alone shows those two, in list order. */
  lemma TwoInRoomShown(ds: seq<Device>, room: string, j: nat, k: nat)
    requires room != "all"
    requires j < k < |ds| && ds[j].room == room && ds[k].room == room
    requires forall i :: 0 <= i < |ds| && i != j && i != k ==> ds[i].room != room
    ensures FilteredDevices(ds, "", room, "all") == [ds[j], ds[k]]
  {
    assert Lower("") == "";
    ContainsEmpty(Lower(ds[j].name));
    ContainsEmpty(Lower(ds[k].name));
    FilterPair(ds, Criteria("", room, "all"), j, k);
  }

  /** On the seeded devices, status `offline` shows only the patio light. */
  lemma SeedOffline()
    ensures FilteredDevices(SeedDevices(), "", "all", "offline") == [SeedDevices()[9]]
    ensures SeedDevices()[9].name == "Patio Light"
  {
    SeedStatuses();
    OnlyOfflineShown(SeedDevices(), 9);
  }

  /** On the seeded devices, room `Kitchen` shows the kitchen light, then the coffee maker. */
  lemma SeedKitchen()
    ensures FilteredDevices(SeedDevices(), "", "Kitchen", "all") == [SeedDevices()[2], SeedDevices()[8]]
    ensures SeedDevices()[2].name == "Kitchen Light" && SeedDevices()[8].name == "Coffee Maker"
  {
    SeedRooms();
    TwoInRoomShown(SeedDevices(), "Kitchen", 2, 8);
  }
}

=== FILE: decimal_text.dfy ===
/**
 Decimal rendering of integers, as a template literal `${n}` prints them,
 and the reading that inverts it.
 */
module DecimalText {

  function DigitChar(d: nat): char
    requires d < 10
  {
    "0123456789"[d]
  }

  predicate IsDigit(c: char) {
    '0' <= c <= '9'
  }

  function DigitValue(c: char): nat {
    if IsDigit(c) then (c as int - '0' as int) as nat else 0
  }

  /** Decimal digits of `n`, most significant first, without leading zeros. */
  function NatText(n: nat): (s: string)
    ensures |s| >= 1
    ensures forall i :: 0 <= i < |s| ==> IsDigit(s[i])
    ensures |s| > 1 ==> s[0] != '0'
    decreases n
  {
    if n < 10 then [DigitChar(n)] else NatText(n / 10) + [DigitChar(n % 10)]
  }

  /** Template-literal rendering of an integer. */
  function IntText(n: int): (s: string)
    ensures |s| >= 1
    ensures s[0] == '-' <==> n < 0
  {
    if n < 0 then "-" + NatText(-n) else NatText(n)
  }

  /** Value of a string of decimal digits. */
  function ParseNat(s: string): nat
    decreases |s|
  {
    if |s| == 0 then 0 else 10 * ParseNat(s[..|s| - 1]) + DigitValue(s[|s| - 1])
  }

  function ParseInt(s: string): int {
    if |s| > 0 && s[0] == '-' then -(ParseNat(s[1..]) as int) else ParseNat(s)
  }

  /** Reading back the decimal text of a number gives the number. */
  lemma {:induction false} NatTextRoundTrip(n: nat)
    ensures ParseNat(NatText(n)) == n
    decreases n
  {
    if n >= 10 {
      var q, d := n / 10, n % 10;
      NatTextRoundTrip(q);
      var s := NatText(q) + [DigitChar(d)];
      assert NatText(n) == s;
      assert s[..|s| - 1] == NatText(q) && s[|s| - 1] == DigitChar(d);
      assert DigitValue(DigitChar(d)) == d;
      assert ParseNat(s) == 10 * q + d;
    } else {
      assert DigitValue(DigitChar(n)) == n;
    }
  }

  /** Reading back the text of any integer, sign included, gives the integer. */
  lemma IntTextRoundTrip(n: int)
    ensures ParseInt(IntText(n)) == n
  {
    if n < 0 {
      NegativeTextRoundTrip(n);
    } else {
      NatTextRoundTrip(n);
      assert IsDigit(NatText(n)[0]);
    }
  }

  lemma NegativeTextRoundTrip(n: int)
    requires n < 0
    ensures ParseInt(IntText(n)) == n
  {
    var m: nat := -n;
    var t := NatText(m);
    var s := "-" + t;
    assert IntText(n) == s;
    assert s[0] == '-' && s[1..] == t;
    NatTextRoundTrip(m);
    assert ParseInt(s) == -(ParseNat(t) as int);
  }
}

=== FILE: device_card.dfy ===
/**
 One device's card: the power switch, the brightness or temperature slider,
 the status badge and the energy label, and the two store updates the card
 issues (toggle the power, set the value).
 */
module DeviceCard {
  import opened SmartHome
  import opened DecimalText
  import EntityStore

  // ---------------------------------------------------------------------------
  // Store updates issued by the card

  /** `{isOn: !device.isOn}` for the device the card was rendered with. */
  function TogglePatch(d: Device): Patch {
    NoChange.(isOn := Some(!d.isOn))
  }

  /**
   `handleToggle`: every device carrying the card's id takes the opposite
   of the card's power state; nothing else changes.
   */
  function HandleToggle(st: Store, d: Device): (r: Store)
    ensures |r.devices| == |st.devices|
    ensures forall i :: 0 <= i < |st.devices| && st.devices[i].id == d.id ==>
              r.devices[i] == st.devices[i].(isOn := !d.isOn)
    ensures forall i :: 0 <= i < |st.devices| && st.devices[i].id != d.id ==> r.devices[i] == st.devices[i]
    ensures r.scenes == st.scenes && r.notifications == st.notifications
  {
    EntityStore.UpdateDevice(st, d.id, TogglePatch(d))
  }

  /**
   Toggling a device's card and then toggling the card rendered afterwards
   restores the store, when the devices sharing its id agree on the power
   state (in particular when ids are unique).
   */
  lemma ToggleTwiceRestores(st: Store, i: nat)
    requires i < |st.devices|
    requires forall j :: 0 <= j < |st.devices| && st.devices[j].id == st.devices[i].id ==>
               st.devices[j].isOn == st.devices[i].isOn
    ensures HandleToggle(HandleToggle(st, st.devices[i]), HandleToggle(st, st.devices[i]).devices[i]) == st
  {
    var d := st.devices[i];
    var st1 := HandleToggle(st, d);
    var st2 := HandleToggle(st1, st1.devices[i]);
    assert st1.devices[i].id == d.id && st1.devices[i].isOn == !d.isOn;
    assert st2.devices == st.devices;
  }

  /** The toggled device is now on exactly when it was off. */
  lemma ToggleFlipsPower(st: Store, i: nat)
    requires i < |st.devices|
    ensures HandleToggle(st, st.devices[i]).devices[i].isOn == !st.devices[i].isOn
  {
  }

  /**
   `{value: values[0]}`: the key is always present; for an empty array
   its value is `undefined`, which clears the device's value.
   */
  function ValuePatch(values: seq<int>): Patch {
    NoChange.(value := Some(if |values| == 0 then None else Some(values[0])))
  }

  /**
   `handleValueChange`: the devices carrying the card's id get the first
   slider value (none when the slider reports no value); their power and
   every other device stay as they were.
   */
  function HandleValueChange(st: Store, d: Device, values: seq<int>): (r: Store)
    ensures |r.devices| == |st.devices|
    ensures forall i :: 0 <= i < |st.devices| ==> r.devices[i].isOn == st.devices[i].isOn
    ensures forall i :: 0 <= i < |st.devices| && st.devices[i].id == d.id ==>
              r.devices[i].value == (if |values| == 0 then None else Some(values[0]))
    ensures forall i :: 0 <= i < |st.devices| ==>
              r.devices[i] == st.devices[i].(value := r.devices[i].value)
    ensures forall i :: 0 <= i < |st.devices| && st.devices[i].id != d.id ==> r.devices[i] == st.devices[i]
    ensures r.scenes == st.scenes && r.notifications == st.notifications
  {
    EntityStore.UpdateDevice(st, d.id, ValuePatch(values))
  }

  // ---------------------------------------------------------------------------
  // Controls

  /** The power switch is disabled for an offline device. */
  predicate SwitchDisabled(d: Device) {
    d.status == Offline
  }

  /** A slider is disabled while the device is off or offline. */
  predicate SliderDisabled(d: Device): (b: bool)
    ensures SwitchDisabled(d) ==> b
  {
    !d.isOn || d.status == Offline
  }

  datatype SliderKind = Brightness | Temperature

  /** A slider as rendered: what it sets, its range (step 1) and its position. */
  datatype Slider = Slider(kind: SliderKind, min: int, max: int, position: int)

  /**
   The slider a card shows: brightness 0..100 for a light and temperature
   60..85 for a thermostat, each only when the device has a value. The
   light's card sets only the maximum; its minimum 0 is the slider's default.
   */
  function SliderFor(d: Device): (r: Option<Slider>)
    ensures r.Some? <==> d.value.Some? && (d.kind == Light || d.kind == Thermostat)
    ensures r.Some? ==> r.value.position == d.value.value && r.value.min < r.value.max
    ensures r.Some? ==> (r.value.kind == Brightness <==> d.kind == Light)
    ensures r.Some? && d.kind == Light ==> r.value.min == 0 && r.value.max == 100
    ensures r.Some? && d.kind == Thermostat ==> r.value.min == 60 && r.value.max == 85
  {
    match (d.kind, d.value)
    case (Light, Some(v)) => Some(Slider(Brightness, 0, 100, v))
    case (Thermostat, Some(v)) => Some(Slider(Temperature, 60, 85, v))
    case _ => None
  }

  /** An offline device has every control of its card disabled. */
  lemma OfflineDisablesControls(d: Device)
    ensures SwitchDisabled(d) ==> SliderDisabled(d)
    ensures SliderFor(d).Some? && !SliderDisabled(d) ==> d.isOn && !SwitchDisabled(d)
  {
  }

  /**
   Moving a slider never removes it: the device keeps its kind and gets a
   value, so the card still shows the same slider at the new position.
   */
  lemma SliderSurvivesValueChange(st: Store, i: nat, v: int)
    requires i < |st.devices|
    requires SliderFor(st.devices[i]).Some?
    ensures var r := HandleValueChange(st, st.devices[i], [v]);
            && SliderFor(r.devices[i]).Some?
            && SliderFor(r.devices[i]).value == SliderFor(st.devices[i]).value.(position := v)
  {
  }

  /** Toggling the power flips whether the slider of a device that is not offline is usable. */
  lemma ToggleEnablesSlider(st: Store, i: nat)
    requires i < |st.devices| && st.devices[i].status != Offline
    ensures SliderDisabled(HandleToggle(st, st.devices[i]).devices[i]) == !SliderDisabled(st.devices[i])
  {
  }

  // ---------------------------------------------------------------------------
  // Status badge and energy label

  /** `getStatusText`. */
  function StatusText(s: Status): string {
    match s
    case Online => "Online"
    case Offline => "Offline"
    case Warning => "Warning"
  }

  /** `getStatusColor`. */
  function StatusColor(s: Status): string {
    match s
    case Online => "bg-[#c8e8b8]"
    case Offline => "bg-[#f8b4c4]"
    case Warning => "bg-[#f8d8b8]"
  }

  /** Every status has its own text and its own colour. */
  lemma StatusTextInjective(a: Status, b: Status)
    ensures StatusText(a) == StatusText(b) <==> a == b
    ensures StatusColor(a) == StatusColor(b) <==> a == b
  {
  }

  datatype BadgeVariant = Secondary | Destructive

  /** The badge is `secondary` when online and `destructive` otherwise; the alert icon only when offline. */
  function BadgeVariantFor(s: Status): (v: BadgeVariant)
    ensures v == Secondary <==> s == Online
  {
    if s == Online then Secondary else Destructive
  }

  predicate ShowsAlertIcon(d: Device) {
    d.status == Offline
  }

  /** `${device.energyUsage} kWh`, rendered only when the usage is defined. */
  function EnergyLabel(d: Device): (r: Option<string>)
    ensures r.Some? <==> d.energyUsage.Some?
  {
    match d.energyUsage
    case None => None
    case Some(e) => Some(IntText(e) + " kWh")
  }

  /** The energy label can be read back to the device's usage. */
  lemma EnergyLabelRoundTrip(d: Device)
    requires d.energyUsage.Some?
    ensures var s := EnergyLabel(d).value;
            |s| >= 4 && ParseInt(s[..|s| - 4]) == d.energyUsage.value
  {
    var s := EnergyLabel(d).value;
    assert s[..|s| - 4] == IntText(d.energyUsage.value);
    IntTextRoundTrip(d.energyUsage.value);
  }

  // ---------------------------------------------------------------------------
  // Icons

  datatype DeviceIcon = Lightbulb | ThermometerIcon | LockIcon | CameraIcon | RadioIcon | PlugIcon

  /** `deviceIcons[device.type]`: defined for every device type. */
  function IconFor(k: DeviceType): DeviceIcon {
    match k
    case Light => Lightbulb
    case Thermostat => ThermometerIcon
    case Lock => LockIcon
    case Camera => CameraIcon
    case Sensor => RadioIcon
    case Outlet => PlugIcon
  }

  /** Different device types have different icons. */
  lemma IconInjective(a: DeviceType, b: DeviceType)
    ensures IconFor(a) == IconFor(b) <==> a == b
  {
  }
}

=== FILE: device_management.dfy ===
/**
 The Add Device dialog and the device list with its delete buttons: what
 submitting the form adds to the store and how the form is reset, and what
 a delete does and reports.
 */
module DeviceManagement {
  import opened Seqs
  import opened SmartHome
  import EntityStore
  import Analytics
  import DeviceCard

  /** The dialog's form: a name, a type and a room. */
  datatype DeviceForm = DeviceForm(name: string, kind: DeviceType, room: string)

  /** The form as first shown and as reset after a submit. */
  const EmptyForm := DeviceForm("", Light, "")

  /**
   The device `handleSubmit` hands to `addDevice`: the form's fields, off,
   online, using no energy, and with value 0 exactly for lights and
   thermostats.
   */
  function NewDeviceSpec(f: DeviceForm): (spec: DeviceSpec)
    ensures spec.name == f.name && spec.kind == f.kind && spec.room == f.room
    ensures !spec.isOn && spec.status == Online && spec.energyUsage == Some(0)
    ensures spec.value.Some? <==> f.kind == Light || f.kind == Thermostat
    ensures spec.value.Some? ==> spec.value.value == 0
  {
    DeviceSpec(f.name, f.kind, f.room, false,
               if f.kind == Light || f.kind == Thermostat then Some(0) else None,
               Online, Some(0))
  }

  /**
   `handleSubmit`: the new device (with the fresh id the store picks) goes at
   the end of the list, and the form is reset.
   */
  function SubmitDevice(st: Store, f: DeviceForm, newId: string): (r: (Store, DeviceForm))
    ensures r.0.devices == st.devices + [NewDeviceSpec(f).WithId(newId)]
    ensures r.0.scenes == st.scenes && r.0.notifications == st.notifications
    ensures r.1 == EmptyForm
  {
    var next := EntityStore.AddDevice(st, NewDeviceSpec(f), newId);
    assert next.devices == next.devices[..|st.devices|] + [next.devices[|st.devices|]];
    (next, EmptyForm)
  }

  /**
   A new device changes none of the analytics figures' totals: it uses no
   energy and is not active.
   */
  lemma SubmitKeepsTotals(st: Store, f: DeviceForm, newId: string)
    ensures var ds := SubmitDevice(st, f, newId).0.devices;
            && Analytics.TotalEnergy(ds) == Analytics.TotalEnergy(st.devices)
            && Analytics.ActiveCount(ds) == Analytics.ActiveCount(st.devices)
  {
    var d := NewDeviceSpec(f).WithId(newId);
    var ds := SubmitDevice(st, f, newId).0.devices;
    assert ds[..|ds| - 1] == st.devices;
    FilterAppend(st.devices, [d], Analytics.IsActive);
    assert Filter([d], Analytics.IsActive) == [];
  }

  /**
   On its card a new light or thermostat shows its slider at 0, disabled
   because the device is off; the power switch is enabled.
   */
  lemma NewDeviceCard(st: Store, f: DeviceForm, newId: string)
    ensures var d := SubmitDevice(st, f, newId).0.devices[|st.devices|];
            && !DeviceCard.SwitchDisabled(d)
            && DeviceCard.SliderDisabled(d)
            && (DeviceCard.SliderFor(d).Some? <==> f.kind == Light || f.kind == Thermostat)
            && (DeviceCard.SliderFor(d).Some? ==> DeviceCard.SliderFor(d).value.position == 0)
  {
  }

  /**
   `handleDelete`: the store drops every device with the id, then the
   optional `onDelete` callback, when the list was given one, receives
   that id.
   */
  function HandleDelete(st: Store, id: string, hasCallback: bool): (r: (Store, Option<string>))
    ensures forall d :: d in r.0.devices <==> d in st.devices && d.id != id
    ensures IsSubsequence(r.0.devices, st.devices)
    ensures forall d: Device :: d.id != id ==> multiset(r.0.devices)[d] == multiset(st.devices)[d]
    ensures r.0 == EntityStore.DeleteDevice(st, id)
    ensures r.0.scenes == st.scenes && r.0.notifications == st.notifications
    ensures r.1.Some? <==> hasCallback
    ensures r.1.Some? ==> r.1.value == id
  {
    (EntityStore.DeleteDevice(st, id), if hasCallback then Some(id) else None)
  }

  /** Submitting the form and then deleting the new device restores the store, when the id was fresh. */
  lemma SubmitThenDelete(st: Store, f: DeviceForm, newId: string, hasCallback: bool)
    requires forall d :: d in st.devices ==> d.id != newId
    ensures HandleDelete(SubmitDevice(st, f, newId).0, newId, hasCallback).0 == st
  {
    EntityStore.AddThenDeleteDevice(st, NewDeviceSpec(f), newId);
  }
}

=== FILE: notification_center.dfy ===
/**
 The notification bell and the notification list: the unread count and the
 badge, the Clear All button, the per-type icon, and the relative age shown
 under each notification (`formatTime`), rendered as decimal text.
 */
module NotificationCenter {
  import opened Seqs
  import opened SmartHome
  import EntityStore
  import opened DecimalText

  // ---------------------------------------------------------------------------
  // Unread count, badge and Clear All

  predicate IsUnread(n: Notification) {
    !n.read
  }

  /** `notifications.filter(n => !n.read).length`. */
  function UnreadCount(ns: seq<Notification>): (c: nat)
    ensures c <= |ns|
    ensures c == 0 <==> forall n :: n in ns ==> n.read
  {
    var unread := Filter(ns, IsUnread);
    assert |unread| == 0 || unread[0] in unread;
    |unread|
  }

  /** The red badge on the bell is rendered when something is unread. */
  predicate ShowsBadge(ns: seq<Notification>): (b: bool)
    ensures b <==> exists n :: n in ns && !n.read
  {
    UnreadCount(ns) > 0
  }

  /** The Clear All button is rendered when the list is not empty. */
  predicate ShowsClearAll(ns: seq<Notification>): (b: bool)
    ensures ShowsBadge(ns) ==> b
  {
    |ns| > 0
  }

  /** The badge is shown exactly when some notification is unread. */
  lemma BadgeIffUnread(ns: seq<Notification>)
    ensures ShowsBadge(ns) <==> exists n :: n in ns && !n.read
  {
  }

  /** A badge implies a Clear All button; after Clear All neither is shown. */
  lemma ClearAllHidesControls(st: Store)
    ensures ShowsBadge(st.notifications) ==> ShowsClearAll(st.notifications)
    ensures !ShowsBadge(EntityStore.ClearAllNotifications(st).notifications)
    ensures !ShowsClearAll(EntityStore.ClearAllNotifications(st).notifications)
  {
  }

  /**
   Pointwise, `b` is at least as read as `a`: then `b` has no more unread
   records, and strictly fewer when some record went from unread to read.
   */
  lemma {:induction false} FewerUnread(a: seq<Notification>, b: seq<Notification>)
    requires |a| == |b|
    requires forall i :: 0 <= i < |a| ==> a[i].read ==> b[i].read
    ensures UnreadCount(b) <= UnreadCount(a)
    ensures (exists i :: 0 <= i < |a| && !a[i].read && b[i].read) ==> UnreadCount(b) < UnreadCount(a)
    decreases |a|
  {
    if |a| > 0 {
      FewerUnread(a[1..], b[1..]);
      assert Filter(a, IsUnread) == (if IsUnread(a[0]) then [a[0]] else []) + Filter(a[1..], IsUnread);
      assert Filter(b, IsUnread) == (if IsUnread(b[0]) then [b[0]] else []) + Filter(b[1..], IsUnread);
      if exists i :: 0 <= i < |a| && !a[i].read && b[i].read {
        var i :| 0 <= i < |a| && !a[i].read && b[i].read;
        if i > 0 {
          assert !a[1..][i - 1].read && b[1..][i - 1].read;
        }
      }
    }
  }

  /**
   Clicking a notification never raises the unread count, and lowers it
   when the clicked notification was unread.
   */
  lemma MarkReadLowersUnread(st: Store, id: string)
    ensures UnreadCount(EntityStore.MarkNotificationRead(st, id).notifications) <= UnreadCount(st.notifications)
    ensures (exists n :: n in st.notifications && n.id == id && !n.read) ==>
              UnreadCount(EntityStore.MarkNotificationRead(st, id).notifications) < UnreadCount(st.notifications)
  {
    var a := st.notifications;
    var b := EntityStore.MarkNotificationRead(st, id).notifications;
    if exists n :: n in a && n.id == id && !n.read {
      var n :| n in a && n.id == id && !n.read;
      var i :| 0 <= i < |a| && a[i] == n;
      assert !a[i].read && b[i].read;
    }
    FewerUnread(a, b);
  }

  /** After everything was marked read, no badge is shown. */
  lemma AllReadHidesBadge(ns: seq<Notification>)
    requires forall i :: 0 <= i < |ns| ==> ns[i].read
    ensures !ShowsBadge(ns)
  {
  }

  // ---------------------------------------------------------------------------
  // Icons

  datatype Icon = InfoIcon | WarningIcon | ErrorIcon

  /** `getIcon`: warnings and errors get the alert icon in their own colour, anything else the info icon. */
  function IconFor(kind: NotificationType): Icon {
    match kind
    case WarningNote => WarningIcon
    case ErrorNote => ErrorIcon
    case InfoNote => InfoIcon
  }

  /** Each notification type has its own icon. */
  lemma IconDistinguishesType(a: NotificationType, b: NotificationType)
    ensures IconFor(a) == IconFor(b) <==> a == b
  {
  }

  // ---------------------------------------------------------------------------
  // Relative age (`formatTime`)

  /**
   How old a notification is shown to be: a count of whole minutes, a count
   of whole hours, or (from one day on) the locale's date text.
   */
  datatype Age = MinutesAgo(mins: int) | HoursAgo(hours: int) | OnDate

  const MinuteMs := 60000
  const HourMs := 3600000
  const DayMs := 86400000

  /**
   The bucket both `formatTime` helpers choose for `diffMs`, the time since
   the notification in milliseconds: `Math.floor` of the quotient by a
   minute and by an hour, minutes below 60, hours below 24.
   */
  function AgeOf(diffMs: int): (a: Age)
    ensures a.MinutesAgo? <==> diffMs < HourMs
    ensures a.HoursAgo? <==> HourMs <= diffMs < DayMs
    ensures a.OnDate? <==> DayMs <= diffMs
    ensures a.MinutesAgo? ==> a.mins * MinuteMs <= diffMs < (a.mins + 1) * MinuteMs && a.mins < 60
    ensures a.MinutesAgo? && 0 <= diffMs ==> 0 <= a.mins
    ensures a.HoursAgo? ==> a.hours * HourMs <= diffMs < (a.hours + 1) * HourMs && 1 <= a.hours < 24
  {
    var mins := diffMs / MinuteMs;
    var hours := diffMs / HourMs;
    if mins < 60 then MinutesAgo(mins)
    else if hours < 24 then HoursAgo(hours)
    else OnDate
  }

  /** A later reading never shows a younger bucket. */
  lemma AgeMonotone(d1: int, d2: int)
    requires d1 <= d2
    ensures AgeOf(d2).MinutesAgo? ==> AgeOf(d1).MinutesAgo? && AgeOf(d1).mins <= AgeOf(d2).mins
    ensures AgeOf(d1).OnDate? ==> AgeOf(d2).OnDate?
    ensures AgeOf(d1).HoursAgo? && AgeOf(d2).HoursAgo? ==> AgeOf(d1).hours <= AgeOf(d2).hours
  {
  }

  // ---------------------------------------------------------------------------
  // The two renderings

  /** The bell's `formatTime`: `5m ago`, `3h ago`, or the locale date text. */
  function BellTime(diffMs: int, localeDate: string): string {
    match AgeOf(diffMs)
    case MinutesAgo(m) => IntText(m) + "m ago"
    case HoursAgo(h) => IntText(h) + "h ago"
    case OnDate => localeDate
  }

  /** The list's `formatTime`: `5 minutes ago`, `3 hours ago`, or the locale date-and-time text. */
  function ListTime(diffMs: int, localeDateTime: string): string {
    match AgeOf(diffMs)
    case MinutesAgo(m) => IntText(m) + " minutes ago"
    case HoursAgo(h) => IntText(h) + " hours ago"
    case OnDate => localeDateTime
  }

  predicate EndsWith(s: string, suffix: string) {
    |suffix| <= |s| && s[|s| - |suffix|..] == suffix
  }

  function DropSuffix(s: string, n: nat): string
    requires n <= |s|
  {
    s[..|s| - n]
  }

  /** What a reader of the bell recovers from its text. */
  function ReadBellTime(s: string): Age {
    if EndsWith(s, "m ago") then MinutesAgo(ParseInt(DropSuffix(s, 5)))
    else if EndsWith(s, "h ago") then HoursAgo(ParseInt(DropSuffix(s, 5)))
    else OnDate
  }

  /** What a reader of the list recovers from its text. */
  function ReadListTime(s: string): Age {
    if EndsWith(s, " minutes ago") then MinutesAgo(ParseInt(DropSuffix(s, 12)))
    else if EndsWith(s, " hours ago") then HoursAgo(ParseInt(DropSuffix(s, 10)))
    else OnDate
  }

  /**
   The bell's text determines the bucket and its count, provided the
   locale's date text does not itself end like a relative age.
   */
  lemma BellTimeRoundTrip(diffMs: int, localeDate: string)
    requires !EndsWith(localeDate, "m ago") && !EndsWith(localeDate, "h ago")
    ensures ReadBellTime(BellTime(diffMs, localeDate)) == AgeOf(diffMs)
  {
    var s := BellTime(diffMs, localeDate);
    match AgeOf(diffMs)
    case MinutesAgo(m) =>
      IntTextRoundTrip(m);
      assert DropSuffix(s, 5) == IntText(m);
    case HoursAgo(h) =>
      IntTextRoundTrip(h);
      assert s[|s| - 5..] == "h ago";
      assert DropSuffix(s, 5) == IntText(h);
    case OnDate =>
  }

  /** The same for the notification list. */
  lemma ListTimeRoundTrip(diffMs: int, localeDateTime: string)
    requires !EndsWith(localeDateTime, " minutes ago") && !EndsWith(localeDateTime, " hours ago")
    ensures ReadListTime(ListTime(diffMs, localeDateTime)) == AgeOf(diffMs)
  {
    var s := ListTime(diffMs, localeDateTime);
    match AgeOf(diffMs)
    case MinutesAgo(m) =>
      IntTextRoundTrip(m);
      assert DropSuffix(s, 12) == IntText(m);
    case HoursAgo(h) =>
      IntTextRoundTrip(h);
      assert s[|s| - 10] == ' ';
      assert |s| < 12 || s[|s| - 12..][2] == s[|s| - 10];
      assert DropSuffix(s, 10) == IntText(h);
    case OnDate =>
  }

  /** The bell and the list always agree on the bucket and its count. */
  lemma BellAndListAgree(diffMs: int, localeDate: string, localeDateTime: string)
    requires !EndsWith(localeDate, "m ago") && !EndsWith(localeDate, "h ago")
    requires !EndsWith(localeDateTime, " minutes ago") && !EndsWith(localeDateTime, " hours ago")
    ensures ReadBellTime(BellTime(diffMs, localeDate)) == ReadListTime(ListTime(diffMs, localeDateTime))
  {
    BellTimeRoundTrip(diffMs, localeDate);
    ListTimeRoundTrip(diffMs, localeDateTime);
  }

  /** The seeded notifications show as `1h ago` and `2h ago`; one of them is unread. */
  lemma SeedAges(now: int)
    ensures AgeOf(now - SeedNotifications(now)[0].timestamp) == HoursAgo(1)
    ensures AgeOf(now - SeedNotifications(now)[1].timestamp) == HoursAgo(2)
    ensures UnreadCount(SeedNotifications(now)) == 1
  {
    var ns := SeedNotifications(now);
    assert Filter(ns, IsUnread) == [ns[0]] + Filter(ns[1..], IsUnread);
    assert Filter(ns[1..], IsUnread) == Filter(ns[2..], IsUnread);
  }
}

=== FILE: scene_creator.dfy ===
/**
 The scenes page: the Create Scene dialog (name, icon, the set of selected
 devices), what submitting it adds to the store, and what each scene card
 shows (icon, up to three device badges, a `+N more` badge).
 */
module SceneCreator {
  import opened Seqs
  import opened SmartHome
  import EntityStore

  // ---------------------------------------------------------------------------
  // Icons

  datatype SceneIcon = Film | HomeIcon | Sun | Moon | Coffee

  /** The key of `sceneIcons` an icon is stored under. */
  function IconName(i: SceneIcon): string {
    match i
    case Film => "Film"
    case HomeIcon => "Home"
    case Sun => "Sun"
    case Moon => "Moon"
    case Coffee => "Coffee"
  }

  /** `sceneIcons[scene.icon] || Home`: a stored name outside the five keys shows the home icon. */
  function IconOrDefault(name: string): (i: SceneIcon)
    ensures IconName(i) == name || i == HomeIcon
    ensures name in ["Film", "Home", "Sun", "Moon", "Coffee"] ==> IconName(i) == name
    ensures name !in ["Film", "Home", "Sun", "Moon", "Coffee"] ==> i == HomeIcon
  {
    if name == "Film" then Film
    else if name == "Sun" then Sun
    else if name == "Moon" then Moon
    else if name == "Coffee" then Coffee
    else HomeIcon
  }

  /** A scene card shows the icon its scene was created with. */
  lemma IconRoundTrip(i: SceneIcon)
    ensures IconOrDefault(IconName(i)) == i
  {
  }

  // ---------------------------------------------------------------------------
  // The dialog

  /** The dialog's state: name, chosen icon, ids of the ticked devices in ticking order. */
  datatype SceneForm = SceneForm(name: string, icon: SceneIcon, selected: seq<string>)

  /** The form as first shown and as reset after a successful submit. */
  const EmptySceneForm := SceneForm("", HomeIcon, [])

  function IdOtherThan(id: string): string -> bool {
    (x: string) => x != id
  }

  /**
   `toggleDevice`: a ticked id is unticked (every occurrence goes, the other
   ids keep their order and multiplicity), an unticked one is appended at
   the end. Membership of `id` flips, no other id's membership changes, and
   a selection without duplicates keeps none.
   */
  function ToggleSelection(sel: seq<string>, id: string): (r: seq<string>)
    ensures id in r <==> id !in sel
    ensures forall x :: x != id ==> (x in r <==> x in sel)
    ensures Distinct(sel) ==> Distinct(r)
    ensures id !in sel ==> |r| == |sel| + 1 && r[..|sel|] == sel && r[|sel|] == id
    ensures id in sel ==> IsSubsequence(r, sel) && forall x :: x != id ==> multiset(r)[x] == multiset(sel)[x]
  {
    if id in sel then
      var p := IdOtherThan(id);
      assert Distinct(sel) ==> Distinct(Filter(sel, p)) by {
        if Distinct(sel) {
          FilterDistinct(sel, p);
        }
      }
      assert forall x :: x != id ==> p(x);
      Filter(sel, p)
    else
      assert (sel + [id])[..|sel|] == sel;
      sel + [id]
  }

  /** Ticking an unticked device and unticking it again restores the selection. */
  lemma ToggleTwiceRestores(sel: seq<string>, id: string)
    requires id !in sel
    ensures ToggleSelection(ToggleSelection(sel, id), id) == sel
  {
    var p := IdOtherThan(id);
    FilterAppend(sel, [id], p);
    FilterKeepsAll(sel, p);
    assert Filter([id], p) == [];
  }

  /** Toggling twice always restores which devices are ticked. */
  lemma ToggleTwiceSameTicks(sel: seq<string>, id: string)
    ensures forall x :: x in ToggleSelection(ToggleSelection(sel, id), id) <==> x in sel
  {
  }

  /**
   The scene's entries: one per ticked device, in ticking order, each
   switching it on and carrying no value.
   */
  function SceneEntries(sel: seq<string>): (es: seq<SceneEntry>)
    ensures |es| == |sel|
    ensures forall i :: 0 <= i < |es| ==> es[i].deviceId == sel[i]
    ensures forall e :: e in es ==> e.isOn && e.value.None?
  {
    seq(|sel|, i requires 0 <= i < |sel| => SceneEntry(sel[i], true, None))
  }

  /** Submitting is refused while the name is empty or nothing is ticked. */
  predicate CanSubmit(f: SceneForm) {
    f.name != "" && |f.selected| > 0
  }

  /**
   `handleSubmit`: a refused submit changes neither the store nor the
   dialog; otherwise the scene (with the fresh id the store picks) goes at
   the end of the scene list and the dialog is reset.
   */
  function SubmitScene(st: Store, f: SceneForm, newId: string): (r: (Store, SceneForm))
    ensures !CanSubmit(f) ==> r == (st, f)
    ensures CanSubmit(f) ==>
              && r.0.scenes == st.scenes + [Scene(newId, f.name, IconName(f.icon), SceneEntries(f.selected))]
              && r.0.devices == st.devices && r.0.notifications == st.notifications
              && r.1 == EmptySceneForm
  {
    if !CanSubmit(f) then (st, f)
    else
      var next := EntityStore.AddScene(st, SceneSpec(f.name, IconName(f.icon), SceneEntries(f.selected)), newId);
      assert next.scenes == next.scenes[..|st.scenes|] + [next.scenes[|st.scenes|]];
      (next, EmptySceneForm)
  }

  /** A scene appended under a fresh id is the one found by that id. */
  lemma FindAppended(scenes: seq<Scene>, s: Scene)
    requires forall x :: x in scenes ==> x.id != s.id
    ensures EntityStore.FindScene(scenes + [s], s.id) == Some(s)
  {
    var all := scenes + [s];
    assert all[|scenes|] == s;
    assert forall j :: 0 <= j < |scenes| ==> all[j] == scenes[j];
  }

  /** The entry of a created scene that configures a device: present exactly when the device was ticked. */
  lemma EntryForTicked(sel: seq<string>, id: string)
    ensures EntityStore.LastEntryFor(SceneEntries(sel), id) ==
            if id in sel then Some(SceneEntry(id, true, None)) else None
  {
    var es := SceneEntries(sel);
    if id in sel {
      var i :| 0 <= i < |sel| && sel[i] == id;
      assert es[i].deviceId == id;
    } else {
      forall e | e in es ensures e.deviceId != id {
        var i :| 0 <= i < |es| && es[i] == e;
      }
    }
  }

  /**
   Activating a scene just created (under a fresh id) switches every
   ticked device on and clears its value; the other devices stay as they
   were.
   */
  lemma ActivateCreatedScene(st: Store, f: SceneForm, newId: string, notifId: string, now: int)
    requires CanSubmit(f)
    requires forall s :: s in st.scenes ==> s.id != newId
    ensures var r := EntityStore.ActivateScene(SubmitScene(st, f, newId).0, newId, notifId, now);
            && |r.devices| == |st.devices|
            && forall i :: 0 <= i < |st.devices| ==>
                 r.devices[i] == if st.devices[i].id in f.selected
                                 then st.devices[i].(isOn := true, value := None)
                                 else st.devices[i]
  {
    var s := Scene(newId, f.name, IconName(f.icon), SceneEntries(f.selected));
    var st1 := SubmitScene(st, f, newId).0;
    FindAppended(st.scenes, s);
    forall i | 0 <= i < |st.devices|
      ensures EntityStore.LastEntryFor(s.devices, st.devices[i].id) ==
              if st.devices[i].id in f.selected then Some(SceneEntry(st.devices[i].id, true, None)) else None
    {
      EntryForTicked(f.selected, st.devices[i].id);
    }
  }

  // ---------------------------------------------------------------------------
  // Scene cards

  /** `devices.find(d => d.id === id)`. */
  function FindDevice(ds: seq<Device>, id: string): (r: Option<Device>)
    ensures r.None? <==> forall d :: d in ds ==> d.id != id
    ensures r.Some? ==> r.value in ds && r.value.id == id
    decreases |ds|
  {
    if |ds| == 0 then None
    else if ds[0].id == id then Some(ds[0])
    else FindDevice(ds[1..], id)
  }

  /** The device found is the first one carrying the id. */
  lemma {:induction false} FindDeviceFirst(ds: seq<Device>, id: string)
    ensures FindDevice(ds, id).Some? ==>
              exists k :: 0 <= k < |ds| && ds[k] == FindDevice(ds, id).value &&
                          forall j :: 0 <= j < k ==> ds[j].id != id
    decreases |ds|
  {
    if |ds| > 0 && ds[0].id != id && FindDevice(ds, id).Some? {
      var tail := ds[1..];
      FindDeviceFirst(tail, id);
      var k :| 0 <= k < |tail| && tail[k] == FindDevice(tail, id).value &&
               forall j :: 0 <= j < k ==> tail[j].id != id;
      assert ds[k + 1] == FindDevice(ds, id).value;
      assert forall j :: 0 <= j < k + 1 ==> ds[j].id != id by {
        forall j | 0 <= j < k + 1 ensures ds[j].id != id {
          if j > 0 { assert ds[j] == tail[j - 1]; }
        }
      }
    }
  }

  /** One badge per entry whose device exists, holding that device's name, in entry order. */
  function BadgeNames(es: seq<SceneEntry>, ds: seq<Device>): (r: seq<string>)
    ensures |r| <= |es|
    ensures forall n :: n in r ==> exists e, d :: e in es && d in ds && d.id == e.deviceId && d.name == n
    ensures (forall e :: e in es ==> exists d :: d in ds && d.id == e.deviceId) ==> |r| == |es|
    decreases |es|
  {
    if |es| == 0 then []
    else
      var rest := BadgeNames(es[1..], ds);
      assert forall e :: e in es[1..] ==> e in es;
      match FindDevice(ds, es[0].deviceId)
      case None => rest
      case Some(d) => [d.name] + rest
  }

  /** The entries whose device is found in the list. */
  function EntryFound(ds: seq<Device>): SceneEntry -> bool {
    (e: SceneEntry) => FindDevice(ds, e.deviceId).Some?
  }

  /**
   Exactly the entries whose device exists get a badge, in entry order, and
   the i-th badge holds the name of the device found for the i-th of them.
   */
  lemma {:induction false} BadgeNamesExact(es: seq<SceneEntry>, ds: seq<Device>)
    ensures var kept := Filter(es, EntryFound(ds));
            && |BadgeNames(es, ds)| == |kept|
            && forall i :: 0 <= i < |kept| ==>
                 FindDevice(ds, kept[i].deviceId).Some? &&
                 BadgeNames(es, ds)[i] == FindDevice(ds, kept[i].deviceId).value.name
    decreases |es|
  {
    if |es| > 0 {
      var p := EntryFound(ds);
      var tail := es[1..];
      BadgeNamesExact(tail, ds);
      var kept := Filter(es, p);
      var keptTail := Filter(tail, p);
      var r := BadgeNames(es, ds);
      var rest := BadgeNames(tail, ds);
      match FindDevice(ds, es[0].deviceId)
      case None =>
        assert !p(es[0]);
        assert kept == keptTail && r == rest;
      case Some(d) =>
        assert p(es[0]);
        assert kept == [es[0]] + keptTail && r == [d.name] + rest;
        forall i | 0 <= i < |kept|
          ensures FindDevice(ds, kept[i].deviceId).Some? && r[i] == FindDevice(ds, kept[i].deviceId).value.name
        {
          if i > 0 {
            assert kept[i] == keptTail[i - 1] && r[i] == rest[i - 1];
          }
        }
    }
  }

  /** The device badges on a scene card: those of the first three entries. */
  function Badges(scene: Scene, ds: seq<Device>): (r: seq<string>)
    ensures |r| <= 3 && |r| <= |scene.devices|
    ensures forall n :: n in r ==>
              exists j, d :: 0 <= j < 3 && j < |scene.devices| && d in ds &&
                             d.id == scene.devices[j].deviceId && d.name == n
  {
    var shown := if |scene.devices| <= 3 then scene.devices else scene.devices[..3];
    var r := BadgeNames(shown, ds);
    assert forall e :: e in shown ==> exists j :: 0 <= j < 3 && j < |scene.devices| && scene.devices[j] == e;
    r
  }

  /** The `+N more` badge: present exactly when the scene has more than three entries, N counting the rest. */
  function MoreBadge(scene: Scene): (r: Option<nat>)
    ensures r.Some? <==> |scene.devices| > 3
    ensures r.Some? ==> r.value >= 1 && 3 + r.value == |scene.devices|
  {
    if |scene.devices| > 3 then Some(|scene.devices| - 3) else None
  }

  /** Every entry is accounted for on the card when all its devices exist and it has at most three entries. */
  lemma SmallSceneShowsAll(scene: Scene, ds: seq<Device>)
    requires |scene.devices| <= 3
    requires forall e :: e in scene.devices ==> exists d :: d in ds && d.id == e.deviceId
    ensures |Badges(scene, ds)| == |scene.devices| && MoreBadge(scene).None?
  {
  }

  /** Three entries whose devices are all found give three badges, in entry order. */
  lemma ThreeBadges(es: seq<SceneEntry>, ds: seq<Device>, a: Device, b: Device, c: Device)
    requires |es| == 3
    requires FindDevice(ds, es[0].deviceId) == Some(a)
    requires FindDevice(ds, es[1].deviceId) == Some(b)
    requires FindDevice(ds, es[2].deviceId) == Some(c)
    ensures BadgeNames(es, ds) == [a.name, b.name, c.name]
  {
    var e1 := es[1..];
    var e2 := e1[1..];
    assert e1[0] == es[1] && e2[0] == es[2] && e2[1..] == [];
    assert BadgeNames(e2, ds) == [c.name];
    assert BadgeNames(e1, ds) == [b.name, c.name];
  }

  lemma FindSeedLights()
    ensures FindDevice(SeedDevices(), "1") == Some(SeedDevices()[0])
    ensures FindDevice(SeedDevices(), "2") == Some(SeedDevices()[1])
    ensures FindDevice(SeedDevices(), "3") == Some(SeedDevices()[2])
  {
    var ds := SeedDevices();
    assert FindDevice(ds, "2") == FindDevice(ds[1..], "2");
    assert FindDevice(ds, "3") == FindDevice(ds[1..][1..], "3");
  }

  /** A scene whose first three entries all name existing devices shows those three names. */
  lemma FirstThreeFound(scene: Scene, ds: seq<Device>, a: Device, b: Device, c: Device)
    requires |scene.devices| >= 3
    requires FindDevice(ds, scene.devices[0].deviceId) == Some(a)
    requires FindDevice(ds, scene.devices[1].deviceId) == Some(b)
    requires FindDevice(ds, scene.devices[2].deviceId) == Some(c)
    ensures Badges(scene, ds) == [a.name, b.name, c.name]
  {
    var es := scene.devices;
    var shown := if |es| <= 3 then es else es[..3];
    assert shown[0] == es[0] && shown[1] == es[1] && shown[2] == es[2] && |shown| == 3;
    ThreeBadges(shown, ds, a, b, c);
  }

  lemma AwayModeEntries()
    ensures |SeedScenes()| == 3 && |SeedScenes()[1].devices| == 5
    ensures SeedScenes()[1].devices[0].deviceId == "1"
    ensures SeedScenes()[1].devices[1].deviceId == "2"
    ensures SeedScenes()[1].devices[2].deviceId == "3"
  {
  }

  /** The seeded Away Mode card: three device badges and `+2 more`. */
  lemma AwayModeCard()
    ensures |SeedScenes()| == 3
    ensures Badges(SeedScenes()[1], SeedDevices()) == ["Living Room Light", "Bedroom Light", "Kitchen Light"]
    ensures MoreBadge(SeedScenes()[1]) == Some(2)
  {
    var ds := SeedDevices();
    AwayModeEntries();
    FindSeedLights();
    FirstThreeFound(SeedScenes()[1], ds, ds[0], ds[1], ds[2]);
  }
}

=== FILE: seqs.dfy ===
/**
 Generic sequence operations used throughout the model: the `filter`,
 element-wise `map` with a selector, and first-occurrence de-duplication
 (what `Array.from(new Set(xs))` yields), each with a contract that
 characterises its result independently of how it is computed.
 */
module Seqs {

  /** `a` can be obtained from `b` by deleting elements (order is kept). */
  predicate IsSubsequence<T(==)>(a: seq<T>, b: seq<T>)
    decreases |b|
  {
    |a| == 0 ||
    (|b| > 0 && ((a[0] == b[0] && IsSubsequence(a[1..], b[1..])) || IsSubsequence(a, b[1..])))
  }

  /** No element occurs twice. */
  predicate Distinct<T(==)>(s: seq<T>) {
    forall i, j :: 0 <= i < j < |s| ==> s[i] != s[j]
  }

  /** Index of the first occurrence of `x` in `s`. */
  function FirstIndex<T(==)>(s: seq<T>, x: T): (k: nat)
    requires x in s
    ensures k < |s| && s[k] == x
    ensures forall j :: 0 <= j < k ==> s[j] != x
  {
    if s[0] == x then 0 else 1 + FirstIndex(s[1..], x)
  }

  /**
   The elements of `s` that satisfy `p`, in their original order
   (`Array.prototype.filter`). Together, the subsequence and the multiset
   clauses determine the result uniquely.
   */
  function Filter<T(==,!new)>(s: seq<T>, p: T -> bool): (r: seq<T>)
    ensures |r| <= |s|
    ensures IsSubsequence(r, s)
    ensures forall x :: x in r <==> x in s && p(x)
    ensures forall x :: p(x) ==> multiset(r)[x] == multiset(s)[x]
    ensures forall x :: !p(x) ==> multiset(r)[x] == 0
    decreases |s|
  {
    if |s| == 0 then []
    else
      assert s == [s[0]] + s[1..];
      var rest := Filter(s[1..], p);
      if p(s[0]) then [s[0]] + rest else rest
  }

  /** Filtering with a predicate that every element satisfies changes nothing. */
  lemma {:induction false} FilterKeepsAll<T(!new)>(s: seq<T>, p: T -> bool)
    requires forall x :: x in s ==> p(x)
    ensures Filter(s, p) == s
    decreases |s|
  {
    if |s| > 0 {
      FilterKeepsAll(s[1..], p);
      assert s == [s[0]] + s[1..];
    }
  }

  /** Filtering distributes over concatenation. */
  lemma {:induction false} FilterAppend<T(!new)>(s: seq<T>, t: seq<T>, p: T -> bool)
    ensures Filter(s + t, p) == Filter(s, p) + Filter(t, p)
    decreases |s|
  {
    if |s| > 0 {
      var u := s + t;
      assert u[0] == s[0] && u[1..] == s[1..] + t;
      FilterAppend(s[1..], t, p);
      if p(s[0]) {
        assert Filter(u, p) == [s[0]] + Filter(u[1..], p);
        assert Filter(s, p) == [s[0]] + Filter(s[1..], p);
      } else {
        assert Filter(u, p) == Filter(u[1..], p);
        assert Filter(s, p) == Filter(s[1..], p);
      }
    } else {
      assert s + t == t;
    }
  }

  /** Filtering drops everything when no position satisfies the predicate. */
  lemma {:induction false} FilterNoneAt<T(!new)>(s: seq<T>, p: T -> bool)
    requires forall i :: 0 <= i < |s| ==> !p(s[i])
    ensures Filter(s, p) == []
    decreases |s|
  {
    if |s| > 0 {
      FilterNoneAt(s[1..], p);
    }
  }

  /** Exactly one position satisfies the predicate: filtering leaves that element alone. */
  lemma {:induction false} FilterSingle<T(!new)>(s: seq<T>, p: T -> bool, k: nat)
    requires k < |s| && p(s[k])
    requires forall i :: 0 <= i < |s| && i != k ==> !p(s[i])
    ensures Filter(s, p) == [s[k]]
    decreases |s|
  {
    var tail := s[1..];
    if k == 0 {
      forall i | 0 <= i < |tail| ensures !p(tail[i]) {
        assert tail[i] == s[i + 1];
      }
      FilterNoneAt(tail, p);
      assert Filter(s, p) == [s[0]] + Filter(tail, p);
    } else {
      forall i | 0 <= i < |tail| && i != k - 1 ensures !p(tail[i]) {
        assert tail[i] == s[i + 1];
      }
      assert tail[k - 1] == s[k];
      FilterSingle(tail, p, k - 1);
      assert Filter(s, p) == Filter(tail, p);
    }
  }

  /** Exactly two positions satisfy the predicate: filtering leaves those two, in order. */
  lemma {:induction false} FilterPair<T(!new)>(s: seq<T>, p: T -> bool, j: nat, k: nat)
    requires j < k < |s| && p(s[j]) && p(s[k])
    requires forall i :: 0 <= i < |s| && i != j && i != k ==> !p(s[i])
    ensures Filter(s, p) == [s[j], s[k]]
    decreases |s|
  {
    var tail := s[1..];
    assert tail[k - 1] == s[k];
    if j == 0 {
      forall i | 0 <= i < |tail| && i != k - 1 ensures !p(tail[i]) {
        assert tail[i] == s[i + 1];
      }
      FilterSingle(tail, p, k - 1);
      assert Filter(tail, p) == [s[k]];
      assert Filter(s, p) == [s[0]] + [s[k]];
    } else {
      forall i | 0 <= i < |tail| && i != j - 1 && i != k - 1 ensures !p(tail[i]) {
        assert tail[i] == s[i + 1];
      }
      assert tail[j - 1] == s[j];
      FilterPair(tail, p, j - 1, k - 1);
      assert Filter(tail, p) == [s[j], s[k]];
      assert Filter(s, p) == Filter(tail, p);
    }
  }

  /** Filtering a list without duplicates yields a list without duplicates. */
  lemma {:induction false} FilterDistinct<T(!new)>(s: seq<T>, p: T -> bool)
    requires Distinct(s)
    ensures Distinct(Filter(s, p))
    decreases |s|
  {
    if |s| > 0 {
      assert Distinct(s[1..]) by {
        forall i, j | 0 <= i < j < |s[1..]| ensures s[1..][i] != s[1..][j] {
          assert s[1..][i] == s[i + 1] && s[1..][j] == s[j + 1];
        }
      }
      FilterDistinct(s[1..], p);
      assert s[0] !in s[1..];
    }
  }

  /** Two predicates that agree on the elements of `s` filter it alike. */
  lemma {:induction false} FilterCongruent<T(!new)>(s: seq<T>, p: T -> bool, q: T -> bool)
    requires forall x :: x in s ==> p(x) == q(x)
    ensures Filter(s, p) == Filter(s, q)
    decreases |s|
  {
    if |s| > 0 {
      FilterCongruent(s[1..], p, q);
    }
  }

  /** A weaker predicate keeps at least as many elements. */
  lemma {:induction false} FilterMonotone<T(!new)>(s: seq<T>, p: T -> bool, q: T -> bool)
    requires forall x :: p(x) ==> q(x)
    ensures |Filter(s, p)| <= |Filter(s, q)|
    decreases |s|
  {
    if |s| > 0 {
      FilterMonotone(s[1..], p, q);
    }
  }

  /**
   `xs.map(x => sel(x) ? f(x) : x)`: the selected elements are replaced by
   their image under `f`, the others are kept, positions do not move.
   */
  function MapWhere<T>(s: seq<T>, sel: T -> bool, f: T -> T): (r: seq<T>)
    ensures |r| == |s|
    ensures forall i :: 0 <= i < |s| && sel(s[i]) ==> r[i] == f(s[i])
    ensures forall i :: 0 <= i < |s| && !sel(s[i]) ==> r[i] == s[i]
    decreases |s|
  {
    if |s| == 0 then []
    else [if sel(s[0]) then f(s[0]) else s[0]] + MapWhere(s[1..], sel, f)
  }

  /**
   The distinct elements of `s` in order of first occurrence (iteration
   order of a JavaScript `Set` built from `s`).
   */
  function Dedup<T(==,!new)>(s: seq<T>): (r: seq<T>)
    ensures Distinct(r)
    ensures forall x :: x in r <==> x in s
    ensures |r| <= |s|
    decreases |s|
  {
    if |s| == 0 then []
    else
      var rest := Dedup(s[..|s| - 1]);
      assert forall x :: x in s <==> x in s[..|s| - 1] || x == s[|s| - 1] by {
        assert s == s[..|s| - 1] + [s[|s| - 1]];
      }
      if s[|s| - 1] in rest then rest else rest + [s[|s| - 1]]
  }

  lemma FirstIndexOfPrefix<T>(s: seq<T>, n: nat, x: T)
    requires n <= |s| && x in s[..n]
    ensures FirstIndex(s, x) == FirstIndex(s[..n], x)
  {
    var k := FirstIndex(s[..n], x);
    assert forall j :: 0 <= j <= k ==> s[j] == s[..n][j];
  }

  lemma FirstIndexAfterPrefix<T>(s: seq<T>, n: nat)
    requires n < |s| && s[n] !in s[..n]
    ensures FirstIndex(s, s[n]) == n
  {
    assert forall j :: 0 <= j < n ==> s[j] == s[..n][j];
  }

  /**
   `Dedup` lists each value where it first appears: earlier positions of the
   result hold values whose first occurrence in `s` comes earlier.
   */
  lemma {:induction false} DedupFirstOccurrenceOrder<T(!new)>(s: seq<T>)
    ensures forall i, j :: 0 <= i < j < |Dedup(s)| ==>
              FirstIndex(s, Dedup(s)[i]) < FirstIndex(s, Dedup(s)[j])
    decreases |s|
  {
    if |s| > 0 {
      var n := |s| - 1;
      var pre := s[..n];
      var rest := Dedup(pre);
      var d := Dedup(s);
      DedupFirstOccurrenceOrder(pre);
      assert d == if s[n] in rest then rest else rest + [s[n]];
      forall x | x in rest
        ensures FirstIndex(s, x) == FirstIndex(pre, x) < n
      {
        FirstIndexOfPrefix(s, n, x);
      }
      if s[n] !in rest {
        FirstIndexAfterPrefix(s, n);
      }
      forall i, j | 0 <= i < j < |d|
        ensures FirstIndex(s, d[i]) < FirstIndex(s, d[j])
      {
        assert d[i] == rest[i] && rest[i] in rest;
        if j < |rest| {
          assert d[j] == rest[j] && rest[j] in rest;
        }
      }
    }
  }
}

=== FILE: smart_home.dfy ===
/**
 The entities of the smart-home store (devices, scenes, notifications), the
 partial-update record that `updateDevice` merges into a device, and the
 data the store is seeded with.
 */
module SmartHome {

  datatype Option<T> = None | Some(value: T)

  datatype DeviceType = Light | Thermostat | Lock | Camera | Sensor | Outlet

  datatype Status = Online | Offline | Warning

  /**
   One device. `value` is the brightness of a light or the set point of a
   thermostat; `energyUsage` is in whole kWh. (`kind` is the source's `type`.)
   */
  datatype Device = Device(
    id: string,
    name: string,
    kind: DeviceType,
    room: string,
    isOn: bool,
    value: Option<int>,
    status: Status,
    energyUsage: Option<nat>)

  /** A device as handed to `addDevice`: every field but the id. */
  datatype DeviceSpec = DeviceSpec(
    name: string,
    kind: DeviceType,
    room: string,
    isOn: bool,
    value: Option<int>,
    status: Status,
    energyUsage: Option<nat>)
  {
    function WithId(id: string): Device {
      Device(id, name, kind, room, isOn, value, status, energyUsage)
    }
  }

  /** The desired state of one device inside a scene. */
  datatype SceneEntry = SceneEntry(deviceId: string, isOn: bool, value: Option<int>)

  datatype Scene = Scene(id: string, name: string, icon: string, devices: seq<SceneEntry>)

  /** A scene as handed to `addScene`: every field but the id. */
  datatype SceneSpec = SceneSpec(name: string, icon: string, devices: seq<SceneEntry>)
  {
    function WithId(id: string): Scene {
      Scene(id, name, icon, devices)
    }
  }

  datatype NotificationType = InfoNote | WarningNote | ErrorNote

  /** `timestamp` is the creation instant in milliseconds since the epoch. */
  datatype Notification = Notification(
    id: string,
    message: string,
    kind: NotificationType,
    timestamp: int,
    read: bool)

  /** The three collections the store owns. */
  datatype Store = Store(devices: seq<Device>, scenes: seq<Scene>, notifications: seq<Notification>)

  /**
   A `Partial<Device>` as spread over a device by `{...device, ...updates}`.
   `None` means the key is absent, so the device keeps its field. The two
   optional fields need a third state: `Some(None)` is a key present with
   the value `undefined`, which clears the field.
   */
  datatype Patch = Patch(
    id: Option<string>,
    name: Option<string>,
    kind: Option<DeviceType>,
    room: Option<string>,
    isOn: Option<bool>,
    value: Option<Option<int>>,
    status: Option<Status>,
    energyUsage: Option<Option<nat>>)

  /** The patch with no keys. */
  const NoChange := Patch(None, None, None, None, None, None, None, None)

  function Override<T>(current: T, update: Option<T>): T {
    match update
    case None => current
    case Some(v) => v
  }

  /** `{...d, ...p}`: every key present in `p` replaces the device's field. */
  function Merge(d: Device, p: Patch): Device {
    Device(
      Override(d.id, p.id),
      Override(d.name, p.name),
      Override(d.kind, p.kind),
      Override(d.room, p.room),
      Override(d.isOn, p.isOn),
      Override(d.value, p.value),
      Override(d.status, p.status),
      Override(d.energyUsage, p.energyUsage))
  }

  /** `q` has every key that `p` has. */
  predicate Covers(q: Patch, p: Patch) {
    && (p.id.Some? ==> q.id.Some?)
    && (p.name.Some? ==> q.name.Some?)
    && (p.kind.Some? ==> q.kind.Some?)
    && (p.room.Some? ==> q.room.Some?)
    && (p.isOn.Some? ==> q.isOn.Some?)
    && (p.value.Some? ==> q.value.Some?)
    && (p.status.Some? ==> q.status.Some?)
    && (p.energyUsage.Some? ==> q.energyUsage.Some?)
  }

  /** Spreading an empty object changes nothing. */
  lemma MergeNoChange(d: Device)
    ensures Merge(d, NoChange) == d
  {
  }

  /**
   A later patch that has all the keys of an earlier one hides the earlier
   one completely; in particular spreading the same patch twice is the same
   as spreading it once.
   */
  lemma MergeLastWins(d: Device, p: Patch, q: Patch)
    requires Covers(q, p)
    ensures Merge(Merge(d, p), q) == Merge(d, q)
    ensures Merge(Merge(d, p), p) == Merge(d, p)
  {
  }

  /** A patch without an `id` key leaves the id alone, so the device stays addressable. */
  lemma MergeKeepsId(d: Device, p: Patch)
    requires p.id.None?
    ensures Merge(d, p).id == d.id
    ensures p.kind.None? ==> Merge(d, p).kind == d.kind
  {
  }

  /** The `type` strings the analytics group devices by. */
  function TypeName(k: DeviceType): string {
    match k
    case Light => "light"
    case Thermostat => "thermostat"
    case Lock => "lock"
    case Camera => "camera"
    case Sensor => "sensor"
    case Outlet => "outlet"
  }

  lemma TypeNameInjective(a: DeviceType, b: DeviceType)
    ensures TypeName(a) == TypeName(b) <==> a == b
  {
  }

  // ---------------------------------------------------------------------------
  // Seed data

  function SeedDevices(): seq<Device> {
    [ Device("1", "Living Room Light", Light, "Living Room", true, Some(80), Online, Some(12)),
      Device("2", "Bedroom Light", Light, "Bedroom", false, Some(0), Online, Some(8)),
      Device("3", "Kitchen Light", Light, "Kitchen", true, Some(100), Online, Some(15)),
      Device("4", "Main Thermostat", Thermostat, "Living Room", true, Some(72), Online, Some(45)),
      Device("5", "Front Door Lock", Lock, "Entrance", true, None, Online, Some(2)),
      Device("6", "Garage Door", Lock, "Garage", false, None, Online, Some(3)),
      Device("7", "Security Camera", Camera, "Front Yard", true, None, Online, Some(18)),
      Device("8", "Motion Sensor", Sensor, "Hallway", true, None, Online, Some(1)),
      Device("9", "Coffee Maker", Outlet, "Kitchen", false, None, Online, Some(0)),
      Device("10", "Patio Light", Light, "Outdoor", false, Some(0), Offline, Some(0)) ]
  }

  function SeedScenes(): seq<Scene> {
    [ Scene("1", "Movie Night", "Film",
            [SceneEntry("1", true, Some(20)), SceneEntry("3", false, None)]),
      Scene("2", "Away Mode", "Home",
            [ SceneEntry("1", false, None), SceneEntry("2", false, None), SceneEntry("3", false, None),
              SceneEntry("5", true, None), SceneEntry("7", true, None) ]),
      Scene("3", "Good Morning", "Sun",
            [ SceneEntry("1", true, Some(100)), SceneEntry("3", true, Some(100)),
              SceneEntry("9", true, None), SceneEntry("4", true, Some(68)) ]) ]
  }

  /** The two seeded notifications are one and two hours older than `now`. */
  function SeedNotifications(now: int): seq<Notification> {
    [ Notification("1", "Patio Light is offline", WarningNote, now - 3600000, false),
      Notification("2", "Motion detected in Hallway", InfoNote, now - 7200000, true) ]
  }

  function InitialStore(now: int): Store {
    Store(SeedDevices(), SeedScenes(), SeedNotifications(now))
  }

  /** The seeded devices and the seeded scenes each have pairwise different ids. */
  lemma SeedIdsDistinct()
    ensures forall i, j :: 0 <= i < j < |SeedDevices()| ==> SeedDevices()[i].id != SeedDevices()[j].id
    ensures forall i, j :: 0 <= i < j < |SeedScenes()| ==> SeedScenes()[i].id != SeedScenes()[j].id
  {
  }

  /** Every entry of a seeded scene names a seeded device, so every badge of a seeded card is found. */
  lemma SeedScenesNameSeededDevices()
    ensures forall s, e :: s in SeedScenes() && e in s.devices ==> exists d :: d in SeedDevices() && d.id == e.deviceId
  {
    var ds := SeedDevices();
    var ss := SeedScenes();
    var named := {"1", "2", "3", "4", "5", "7", "9"};
    assert forall k, j :: 0 <= k < |ss| && 0 <= j < |ss[k].devices| ==> ss[k].devices[j].deviceId in named;
    forall x | x in named
      ensures exists d :: d in ds && d.id == x
    {
      var k := if x == "1" then 0 else if x == "2" then 1 else if x == "3" then 2
               else if x == "4" then 3 else if x == "5" then 4 else if x == "7" then 6 else 8;
      assert ds[k] in ds && ds[k].id == x;
    }
  }

  /** The seeded notifications are older than the moment the store is created. */
  lemma SeedNotificationsOlder(now: int)
    ensures forall n :: n in SeedNotifications(now) ==> n.timestamp < now
  {
  }
}

=== FILE: store.dfy ===
/**
 The operations of the smart-home store: add, update and delete devices and
 scenes, scene activation, and the notification operations. Each takes the
 current `Store` snapshot and returns the next one. Fresh ids and the
 current time are parameters.
 */
module EntityStore {
  import opened Seqs
  import opened SmartHome

  /** Selector of the devices an `updateDevice(id, …)` touches. */
  function DeviceHasId(id: string): Device -> bool {
    (d: Device) => d.id == id
  }

  /** Filter predicate of `deleteDevice(id)`. */
  function DeviceOtherThan(id: string): Device -> bool {
    (d: Device) => d.id != id
  }

  /** Filter predicate of `deleteScene(id)`. */
  function SceneOtherThan(id: string): Scene -> bool {
    (s: Scene) => s.id != id
  }

  function MergeWith(p: Patch): Device -> Device {
    (d: Device) => Merge(d, p)
  }

  /** `addDevice`: the new device, carrying `newId`, goes at the end. */
  function AddDevice(st: Store, spec: DeviceSpec, newId: string): (r: Store)
    ensures |r.devices| == |st.devices| + 1
    ensures r.devices[..|st.devices|] == st.devices
    ensures r.devices[|st.devices|] == spec.WithId(newId)
    ensures r.scenes == st.scenes && r.notifications == st.notifications
  {
    st.(devices := st.devices + [spec.WithId(newId)])
  }

  /**
   `updateDevice`: every device whose id is `id` gets the patch spread over
   it; the rest, and the order, stay as they were.
   */
  function UpdateDevice(st: Store, id: string, p: Patch): (r: Store)
    ensures |r.devices| == |st.devices|
    ensures forall i :: 0 <= i < |st.devices| && st.devices[i].id == id ==>
              r.devices[i] == Merge(st.devices[i], p)
    ensures forall i :: 0 <= i < |st.devices| && st.devices[i].id != id ==>
              r.devices[i] == st.devices[i]
    ensures (forall d :: d in st.devices ==> d.id != id) ==> r == st
    ensures r.scenes == st.scenes && r.notifications == st.notifications
  {
    st.(devices := MapWhere(st.devices, DeviceHasId(id), MergeWith(p)))
  }

  /**
   `deleteDevice`: every device with that id goes, the others stay with
   their multiplicity and relative order; scenes keep their references.
   */
  function DeleteDevice(st: Store, id: string): (r: Store)
    ensures IsSubsequence(r.devices, st.devices)
    ensures forall d :: d in r.devices <==> d in st.devices && d.id != id
    ensures forall d: Device :: d.id != id ==> multiset(r.devices)[d] == multiset(st.devices)[d]
    ensures r.scenes == st.scenes && r.notifications == st.notifications
  {
    st.(devices := Filter(st.devices, DeviceOtherThan(id)))
  }

  /** `addScene`: the new scene, carrying `newId`, goes at the end. */
  function AddScene(st: Store, spec: SceneSpec, newId: string): (r: Store)
    ensures |r.scenes| == |st.scenes| + 1
    ensures r.scenes[..|st.scenes|] == st.scenes
    ensures r.scenes[|st.scenes|] == spec.WithId(newId)
    ensures r.devices == st.devices && r.notifications == st.notifications
  {
    st.(scenes := st.scenes + [spec.WithId(newId)])
  }

  /** `deleteScene`: every scene with that id goes, the others keep their order. */
  function DeleteScene(st: Store, id: string): (r: Store)
    ensures IsSubsequence(r.scenes, st.scenes)
    ensures forall s :: s in r.scenes <==> s in st.scenes && s.id != id
    ensures forall s: Scene :: s.id != id ==> multiset(r.scenes)[s] == multiset(st.scenes)[s]
    ensures r.devices == st.devices && r.notifications == st.notifications
  {
    st.(scenes := Filter(st.scenes, SceneOtherThan(id)))
  }

  /** `addNotification`: a new unread record goes in front of the list. */
  function AddNotification(st: Store, id: string, message: string, kind: NotificationType, now: int): (r: Store)
    ensures |r.notifications| == |st.notifications| + 1
    ensures r.notifications[0] == Notification(id, message, kind, now, false)
    ensures r.notifications[1..] == st.notifications
    ensures r.devices == st.devices && r.scenes == st.scenes
  {
    st.(notifications := [Notification(id, message, kind, now, false)] + st.notifications)
  }

  /** Selector of the records a `markNotificationRead(id)` touches. */
  function NotificationHasId(id: string): Notification -> bool {
    (n: Notification) => n.id == id
  }

  function SetRead(n: Notification): Notification {
    n.(read := true)
  }

  /**
   `markNotificationRead`: the records with that id become read; no other
   record and no other field changes.
   */
  function MarkNotificationRead(st: Store, id: string): (r: Store)
    ensures |r.notifications| == |st.notifications|
    ensures forall i :: 0 <= i < |st.notifications| ==>
              r.notifications[i].read == (st.notifications[i].read || st.notifications[i].id == id)
    ensures forall i :: 0 <= i < |st.notifications| ==>
              r.notifications[i] == st.notifications[i].(read := r.notifications[i].read)
    ensures r.devices == st.devices && r.scenes == st.scenes
  {
    st.(notifications := MapWhere(st.notifications, NotificationHasId(id), SetRead))
  }

  /** `clearAllNotifications`. */
  function ClearAllNotifications(st: Store): (r: Store)
    ensures r.notifications == []
    ensures r.devices == st.devices && r.scenes == st.scenes
  {
    st.(notifications := [])
  }

  // ---------------------------------------------------------------------------
  // Properties of the basic operations

  /** An unknown id makes `deleteDevice` a no-op. */
  lemma DeleteUnknownDevice(st: Store, id: string)
    requires forall d :: d in st.devices ==> d.id != id
    ensures DeleteDevice(st, id) == st
  {
    FilterKeepsAll(st.devices, DeviceOtherThan(id));
  }

  /** Deleting and then updating the same id: the update finds nothing. */
  lemma UpdateAfterDelete(st: Store, id: string, p: Patch)
    ensures UpdateDevice(DeleteDevice(st, id), id, p) == DeleteDevice(st, id)
  {
  }

  /** Updating only `isOn` sets it on the matching devices and keeps every other field. */
  lemma UpdateIsOnOnly(st: Store, id: string, x: bool)
    ensures forall i :: 0 <= i < |st.devices| && st.devices[i].id == id ==>
              UpdateDevice(st, id, NoChange.(isOn := Some(x))).devices[i] == st.devices[i].(isOn := x)
  {
  }

  /** Adding a device under a fresh id and deleting that id restores the store. */
  lemma AddThenDeleteDevice(st: Store, spec: DeviceSpec, newId: string)
    requires forall d :: d in st.devices ==> d.id != newId
    ensures DeleteDevice(AddDevice(st, spec, newId), newId) == st
  {
    var keep := DeviceOtherThan(newId);
    FilterAppend(st.devices, [spec.WithId(newId)], keep);
    FilterKeepsAll(st.devices, keep);
    assert Filter([spec.WithId(newId)], keep) == [];
  }

  /** Adding a scene under a fresh id and deleting that id restores the store. */
  lemma AddThenDeleteScene(st: Store, spec: SceneSpec, newId: string)
    requires forall s :: s in st.scenes ==> s.id != newId
    ensures DeleteScene(AddScene(st, spec, newId), newId) == st
  {
    var keep := SceneOtherThan(newId);
    FilterAppend(st.scenes, [spec.WithId(newId)], keep);
    FilterKeepsAll(st.scenes, keep);
    assert Filter([spec.WithId(newId)], keep) == [];
  }

  /** Marking the same id read twice is the same as once. */
  lemma MarkReadIdempotent(st: Store, id: string)
    ensures MarkNotificationRead(MarkNotificationRead(st, id), id) == MarkNotificationRead(st, id)
  {
  }

  /** After a clear, marking anything read leaves the list empty. */
  lemma ClearThenMarkRead(st: Store, id: string)
    ensures MarkNotificationRead(ClearAllNotifications(st), id).notifications == []
  {
  }

  // ---------------------------------------------------------------------------
  // Scene activation

  /** `scenes.find(s => s.id === id)`: the first scene with that id. */
  function FindScene(scenes: seq<Scene>, id: string): (r: Option<Scene>)
    ensures r.None? <==> forall s :: s in scenes ==> s.id != id
    ensures r.Some? ==> exists k :: 0 <= k < |scenes| && scenes[k] == r.value && r.value.id == id &&
                                   forall j :: 0 <= j < k ==> scenes[j].id != id
    decreases |scenes|
  {
    if |scenes| == 0 then None
    else if scenes[0].id == id then Some(scenes[0])
    else
      var r := FindScene(scenes[1..], id);
      if r.Some? then
        var k :| 0 <= k < |scenes[1..]| && scenes[1..][k] == r.value && r.value.id == id &&
                 forall j :: 0 <= j < k ==> scenes[1..][j].id != id;
        assert scenes[k + 1] == r.value;
        r
      else r
  }

  /** The patch one scene entry applies: `{isOn: e.isOn, value: e.value}`. */
  function EntryPatch(e: SceneEntry): Patch {
    NoChange.(isOn := Some(e.isOn), value := Some(e.value))
  }

  /**
   The state a device reaches under the scene entry that configures it last,
   if any: power and value are taken from the entry (an entry without a
   value clears the device's value), everything else stays.
   */
  function Configure(d: Device, e: Option<SceneEntry>): Device {
    match e
    case None => d
    case Some(entry) => d.(isOn := entry.isOn, value := entry.value)
  }

  /** The last entry of `es` that names device `id`. */
  function LastEntryFor(es: seq<SceneEntry>, id: string): (r: Option<SceneEntry>)
    ensures r.None? <==> forall e :: e in es ==> e.deviceId != id
    ensures r.Some? ==> exists k :: 0 <= k < |es| && es[k] == r.value && r.value.deviceId == id &&
                                   forall j :: k < j < |es| ==> es[j].deviceId != id
    decreases |es|
  {
    if |es| == 0 then None
    else if es[|es| - 1].deviceId == id then Some(es[|es| - 1])
    else
      assert es == es[..|es| - 1] + [es[|es| - 1]];
      LastEntryFor(es[..|es| - 1], id)
  }

  /**
   The entries of a scene applied one after another, each through
   `updateDevice`. Each device ends up configured by the last entry that
   names it; entries naming no device have no effect.
   */
  function ApplyEntries(st: Store, es: seq<SceneEntry>): (r: Store)
    ensures |r.devices| == |st.devices|
    ensures forall i :: 0 <= i < |st.devices| ==>
              r.devices[i] == Configure(st.devices[i], LastEntryFor(es, st.devices[i].id))
    ensures r.scenes == st.scenes && r.notifications == st.notifications
    decreases |es|
  {
    if |es| == 0 then st
    else
      var last := es[|es| - 1];
      UpdateDevice(ApplyEntries(st, es[..|es| - 1]), last.deviceId, EntryPatch(last))
  }

  function ActivationMessage(sceneName: string): string {
    "Scene \"" + sceneName + "\" activated"
  }

  /**
   `activateScene`, with its entries applied in order. An unknown scene id
   changes nothing; otherwise the devices are configured by the scene and
   one info notification is put in front.
   */
  function ActivateScene(st: Store, sceneId: string, notifId: string, now: int): (r: Store)
    ensures FindScene(st.scenes, sceneId).None? ==> r == st
    ensures FindScene(st.scenes, sceneId).Some? ==>
              var es := FindScene(st.scenes, sceneId).value.devices;
              && |r.devices| == |st.devices|
              && (forall i :: 0 <= i < |st.devices| ==>
                    r.devices[i] == Configure(st.devices[i], LastEntryFor(es, st.devices[i].id)))
    ensures FindScene(st.scenes, sceneId).Some? ==>
              var name := FindScene(st.scenes, sceneId).value.name;
              && |r.notifications| == |st.notifications| + 1
              && r.notifications[0] == Notification(notifId, ActivationMessage(name), InfoNote, now, false)
              && r.notifications[1..] == st.notifications
    ensures r.scenes == st.scenes
  {
    match FindScene(st.scenes, sceneId)
    case None => st
    case Some(scene) =>
      AddNotification(ApplyEntries(st, scene.devices), notifId, ActivationMessage(scene.name), InfoNote, now)
  }

  /**
   `activateScene` as it behaves at run time: every `updateDevice` call maps
   over the same captured device list and the last state update wins, so
   only the final entry of the scene takes effect.
   */
  function ActivateSceneAsRun(st: Store, sceneId: string, notifId: string, now: int): (r: Store)
    ensures FindScene(st.scenes, sceneId).None? ==> r == st
    ensures FindScene(st.scenes, sceneId).Some? ==>
              var es := FindScene(st.scenes, sceneId).value.devices;
              && |r.devices| == |st.devices|
              && (forall i :: 0 <= i < |st.devices| ==>
                    r.devices[i] == Configure(st.devices[i],
                                              if |es| > 0 && es[|es| - 1].deviceId == st.devices[i].id
                                              then Some(es[|es| - 1]) else None))
    ensures FindScene(st.scenes, sceneId).Some? ==>
              var name := FindScene(st.scenes, sceneId).value.name;
              && |r.notifications| == |st.notifications| + 1
              && r.notifications[0] == Notification(notifId, ActivationMessage(name), InfoNote, now, false)
              && r.notifications[1..] == st.notifications
    ensures r.scenes == st.scenes
  {
    match FindScene(st.scenes, sceneId)
    case None => st
    case Some(scene) =>
      var es := scene.devices;
      var configured := if |es| == 0 then st else UpdateDevice(st, es[|es| - 1].deviceId, EntryPatch(es[|es| - 1]));
      AddNotification(configured, notifId, ActivationMessage(scene.name), InfoNote, now)
  }

  /** Activating the same scene twice leaves the devices as one activation does. */
  lemma ActivateSceneIdempotent(st: Store, sceneId: string, id1: string, id2: string, t1: int, t2: int)
    ensures ActivateScene(ActivateScene(st, sceneId, id1, t1), sceneId, id2, t2).devices
         == ActivateScene(st, sceneId, id1, t1).devices
  {
    var once := ActivateScene(st, sceneId, id1, t1);
    var twice := ActivateScene(once, sceneId, id2, t2);
    if FindScene(st.scenes, sceneId).Some? {
      var es := FindScene(st.scenes, sceneId).value.devices;
      forall i | 0 <= i < |st.devices|
        ensures twice.devices[i] == once.devices[i]
      {
        assert once.devices[i].id == st.devices[i].id;
      }
    }
  }

  /** The two readings of `activateScene` agree on scenes with at most one entry. */
  lemma AsRunAgreesOnShortScenes(st: Store, sceneId: string, notifId: string, now: int)
    requires FindScene(st.scenes, sceneId).Some? ==> |FindScene(st.scenes, sceneId).value.devices| <= 1
    ensures ActivateSceneAsRun(st, sceneId, notifId, now) == ActivateScene(st, sceneId, notifId, now)
  {
    var r1 := ActivateSceneAsRun(st, sceneId, notifId, now);
    var r2 := ActivateScene(st, sceneId, notifId, now);
    if FindScene(st.scenes, sceneId).Some? {
      var es := FindScene(st.scenes, sceneId).value.devices;
      forall i | 0 <= i < |st.devices|
        ensures r1.devices[i] == r2.devices[i]
      {
        if |es| == 1 {
          assert es == [es[0]];
          assert es[..0] == [];
        }
      }
    }
  }

  lemma FindGoodMorning()
    ensures FindScene(SeedScenes(), "3") == Some(SeedScenes()[2])
  {
    var sc := SeedScenes();
    assert sc[0].id != "3" && sc[1].id != "3" && sc[2].id == "3";
    assert sc[1..][1..] == [sc[2]];
  }

  /** Activating "Good Morning" on the seeded store. */
  lemma GoodMorningScenario(now: int, notifId: string)
    ensures var r := ActivateScene(InitialStore(now), "3", notifId, now);
            && r.devices[0] == SeedDevices()[0].(isOn := true, value := Some(100))
            && r.devices[3] == SeedDevices()[3].(isOn := true, value := Some(68))
            && r.notifications[0].message == "Scene \"Good Morning\" activated"
            && r.notifications[1..] == SeedNotifications(now)
  {
    GoodMorningLight(now, notifId);
    GoodMorningThermostat(now, notifId);
    GoodMorningNotification(now, notifId);
  }

  /** An entry whose device no other entry names is the one that configures that device. */
  lemma LastEntryUnique(es: seq<SceneEntry>, k: nat)
    requires k < |es|
    requires forall j :: 0 <= j < |es| && j != k ==> es[j].deviceId != es[k].deviceId
    ensures LastEntryFor(es, es[k].deviceId) == Some(es[k])
  {
  }

  lemma GoodMorningEntries()
    ensures |SeedScenes()| == 3
    ensures var es := SeedScenes()[2].devices;
            && |es| == 4
            && es[0] == SceneEntry("1", true, Some(100)) && es[3] == SceneEntry("4", true, Some(68))
            && es[1].deviceId == "3" && es[2].deviceId == "9"
  {
  }

  lemma GoodMorningLight(now: int, notifId: string)
    ensures ActivateScene(InitialStore(now), "3", notifId, now).devices[0]
         == SeedDevices()[0].(isOn := true, value := Some(100))
  {
    FindGoodMorning();
    GoodMorningEntries();
    LastEntryUnique(SeedScenes()[2].devices, 0);
    SeedLight();
  }

  lemma GoodMorningThermostat(now: int, notifId: string)
    ensures ActivateScene(InitialStore(now), "3", notifId, now).devices[3]
         == SeedDevices()[3].(isOn := true, value := Some(68))
  {
    FindGoodMorning();
    GoodMorningEntries();
    LastEntryUnique(SeedScenes()[2].devices, 3);
    SeedThermostat();
  }

  lemma GoodMorningNotification(now: int, notifId: string)
    ensures var r := ActivateScene(InitialStore(now), "3", notifId, now);
            && r.notifications[0].message == "Scene \"Good Morning\" activated"
            && r.notifications[1..] == SeedNotifications(now)
  {
    FindGoodMorning();
    GoodMorningMessage();
  }

  lemma SeedThermostat()
    ensures |SeedDevices()| == 10 && SeedDevices()[3].id == "4"
  {
  }

  lemma SeedLight()
    ensures |SeedDevices()| == 10 && SeedDevices()[0].id == "1"
  {
  }

  lemma GoodMorningMessage()
    ensures ActivationMessage(SeedScenes()[2].name) == "Scene \"Good Morning\" activated"
  {
  }

  /** At run time, activating "Good Morning" only reaches the thermostat. */
  lemma GoodMorningAsRun(now: int, notifId: string)
    ensures ActivateSceneAsRun(InitialStore(now), "3", notifId, now).devices[0] == SeedDevices()[0]
    ensures ActivateScene(InitialStore(now), "3", notifId, now).devices[0] != SeedDevices()[0]
  {
    FindGoodMorning();
    var es := SeedScenes()[2].devices;
    assert LastEntryFor(es, "1") == Some(es[0]) by {
      assert es[3].deviceId != "1" && es[2].deviceId != "1" && es[1].deviceId != "1";
      assert es[..3][..2][..1] == [es[0]];
    }
  }
}
